=== FILE: README.md ===
# covid-statistic in Dafny

This is a functional model of the data engine of the covid-statistic React
application. The application loads the ECDC per-country daily COVID-19
reports. It normalises their `DD/MM/YYYY` dates, sums cases and deaths per
country over the whole data set (the *lifetime totals*), and shows one
aggregated row per country. Each row carries per-1000 rates and the lifetime
totals. The user can filter by country (a case-insensitive substring) and by
an inclusive date range. The user can also sort by one of five columns and
page through 20 rows at a time. A chart view splits each row's concatenated
ISO date strings back into one point per date.

The React component state becomes an explicit `Session` record. Every user
event is a `Command` that `Sessions.Step` applies. The records are fixed at
`Load`, so the lifetime totals always come from the full data set, whatever
subset is on display.

| file | module | models |
|---|---|---|
| wrappers.dfy | Wrappers | `Option`, `Result` |
| strings.dfy | Strings | `split`, join, ASCII `toLowerCase`, `includes`, `trim() === ''`, decimal digits |
| seqs.dfy | Seqs | `filter` (`Keep`), subsequences, first-appearance de-duplication (`new Set`) |
| sorting.dfy | Sorting | a stable comparator sort (`Array.prototype.sort`) |
| dates.dfy | Dates | calendar dates, `DD/MM/YYYY` parsing, `toISOString` at midnight |
| records.dfy | Records | the raw and the normalised record, normalisation at load |
| totals.dfy | Totals | the lifetime-totals dictionary |
| aggregation.dfy | Aggregation | `processData`: one summary row per country |
| filtering.dfy | Filtering | range validation, the country and date filters |
| view.dfy | View | sort toggle, row comparator, sort, pagination |
| sessions.dfy | Sessions | the application state, its commands and its invariant |
| filter_form.dfy | FilterForm | the filter form: autocomplete options, country list, apply and clear |
| chart.dfy | Chart | chart points and axis years |

Library and imported functions whose results the model cannot compute are parameters:
- `cleanCountryName` is `clean: string -> string`;
- `localeCompare` is a comparator;
- `getFullYear` of a timestamp is `yearOf: string -> int`.

## Model

| member | source | states |
|---|---|---|
| Records.NormaliseRecord | src/App.tsx:31-39 | one raw record normalises exactly when its date string reads as a date; cases, deaths, country and population are carried over unchanged, the date is the one read, and each rate is count / population * 1000, absent (NaN or Infinity) when the population is 0 |
| Records.Normalise | src/App.tsx:31-40 | the load succeeds exactly when every date string reads as a date; then there is one output record per input record, in the same order, each normalised from the input at its position; otherwise it fails with "Invalid time value" |
| Records.UnguardedRate | src/App.tsx:37-38 | the load-time rate is absent (NaN or Infinity) exactly when the population is 0; otherwise the rate times the population is the count times 1000 |
| Dates.ParseFormat | src/App.tsx:32-33 | reading a written `DD/MM/YYYY` string gives back the same day, month and year: the first field is the day, the second the month, the third the year |
| Dates.ParseDateRep | src/App.tsx:32-33 | a date string reads as a date exactly when it has at least three `/`-separated fields and the first three are decimal numbers; the day is the first field, the month the second and the year the third |
| Dates.DayComesFirst | src/App.tsx:32-33 | "02/01/2020" is the 2nd of January 2020 |
| Dates.OnOrBeforeIsTotalOrder | src/App.tsx:143 | the date order the filter uses is reflexive, total, antisymmetric and transitive |
| Dates.IsoString | src/App.tsx:36 | the ISO string of a date ends in 'Z', has no other 'Z', and is not blank before it, so that concatenated ISO strings can be split back on 'Z' |
| Dates.IsoStringInjective | src/App.tsx:36 | two dates with the same ISO string are the same date, so each point's ISO string identifies its record's date |
| Totals.LifetimeTotals | src/App.tsx:63-79 | the dictionary has a key for exactly the countries that occur, and each key maps to the sums of cases and deaths over all records of that country |
| Totals.AddRecordExtends | src/App.tsx:70-79 | one step of the `forEach` turns the totals of a prefix into the totals of the prefix extended by one record |
| Aggregation.NewRow | src/App.tsx:84-97 | a country's entry starts with the country, the population of its first record, zero cases and deaths, and an empty `dateRep` |
| Aggregation.Accumulate | src/App.tsx:99-107 | accumulating a record keeps the country and population, adds the record's cases and deaths, appends its ISO date, sets the rates from the new sums and the kept population, and sets both totals to the looked-up `totalDict[country]` cases and deaths |
| Aggregation.UpsertShape | src/App.tsx:82-99 | one `forEach` step adds the record's country at the end of the country list when it is new, and otherwise keeps the list; the entries of the other countries are unchanged |
| Aggregation.UpsertAppends | src/App.tsx:84-97 | a new country's entry is created after every existing entry and accumulates the record |
| Aggregation.AggregateCountries | src/App.tsx:81-110 | `Object.values` of the dictionary lists each distinct country of the subset once, in order of first appearance |
| Sessions.ProcessData | src/App.tsx:61-115 | processing a subset gives one row per distinct country of the subset, in order of first appearance; `Sessions.AggregateSubset` adds that each row holds the subset sums and the lifetime totals over all records |
| Aggregation.AggregateIsSummaries | src/App.tsx:81-110 | the aggregated rows are, in order of first appearance, one summary per distinct country of the subset; a summary holds the subset sums, the population of the country's first record, the rates from those sums, the concatenated ISO dates and the looked-up totals |
| Aggregation.UpsertSummaries | src/App.tsx:84-103 | one `forEach` step turns the summaries of a prefix into the summaries of the prefix extended by one record: the row of a known country accumulates the record, and a new country gets a row at the end |
| Aggregation.SummarySnocSame | src/App.tsx:98-107 | adding a record of a country already seen adds its counts, appends its ISO date and keeps the first population |
| Aggregation.SummarySnocNew | src/App.tsx:84-107 | the first record of a country yields a row that starts from zero counts and the record's own population, then accumulates that record |
| Aggregation.Rate | src/App.tsx:105-107 | a population of 0 or less gives the rate 0 |
| Aggregation.RatePerThousand | src/App.tsx:106-107 | with a positive population, the rate times the population is the count times 1000 |
| Aggregation.LookupTotal | src/App.tsx:101-102 | a lookup gives a value exactly when the country has an entry in the totals, and that value is the entry's cases or deaths |
| Filtering.RangeError | src/App.tsx:121-129 | "Please select end date" exactly when only the start is set; "Please select start date" exactly when only the end is set; no message exactly when both or neither are set |
| Filtering.FilterRecords | src/App.tsx:131-157 | the filtered records are a subsequence of the data; each matches the country selector and lies in the range; and each record of the data is kept with its full multiplicity when it matches, and dropped otherwise |
| Filtering.FilterIsKeep | src/App.tsx:131-157 | the country filter followed by the four-branch date filter is one `filter` by the reference predicate: country wildcard or substring match, and both set bounds inclusive |
| Filtering.NoFilterKeepsAll | src/App.tsx:132 | with country `''` or `'All Countries'` and no range, every record is kept in order |
| Filtering.BoundsInclusive | src/App.tsx:138-144 | a matching record dated exactly on the start or the end date is kept |
| Filtering.SubstringSelection | src/App.tsx:132-135 | "franc" selects France and not Spain |
| Sessions.Load | src/App.tsx:15-54 | the load succeeds exactly when normalisation does; the session then holds the normalised records, their aggregation against their own totals, and as country list the cleaned distinct countries in order of first appearance, on page 1, sorted by country ascending, in the table view, with no selection, no range and no message |
| Sessions.AvailableCountries | src/App.tsx:47-48 | entry i is the cleaned name of the i-th distinct country in order of first appearance, so the cleaned name of every record's country is offered |
| Sessions.AvailableCountriesOnce | src/App.tsx:47-48 | with a clean-up that never merges two names, no country is offered twice, the offered names are exactly the cleaned countries of the records, and they come in order of first appearance |
| Sessions.ApplyFilter | src/App.tsx:117-166 | the selection and the range are recorded first; the message is the range error; with a message, the rows and the page are left as they were; otherwise the rows are the aggregation of the filtered records and the page is 1; the records, country list, sort and mode never change |
| Sessions.ClearFilters | src/App.tsx:168-174 | the selection and range are reset, all records are re-aggregated, the page is 1, and the message is left as it was |
| Sessions.Step | src/App.tsx:117-184 | the filter events are `handleFilter` and `handleClearFilters`; changing the page sets only the page; sorting applies the toggle (descending exactly when the clicked key was active and ascending) and changes nothing else; switching the view flips only the mode; no event changes the records or the country list |
| Sessions.Run | src/App.tsx:117-184 | a sequence of events keeps the records and the country list, and one with no filter event keeps the rows |
| Sessions.FilterResetsOrKeepsView | src/App.tsx:121-129 | after a one-sided range the displayed rows and page are unchanged and a message is set; otherwise the page is 1 and no message is set |
| Sessions.AggregateSubset | src/App.tsx:101-102 | aggregating any subset of the records gives rows with distinct countries, the subset sums as counts, and the lifetime totals over all records as totals |
| Sessions.RunValid | src/App.tsx:163-173 | every sequence of user events keeps the records as loaded and keeps the invariant: displayed countries distinct, each row's totals the lifetime totals of its country |
| Sessions.LoadValid | src/App.tsx:42-45 | a successful load establishes that invariant |
| Sessions.Displayed | src/App.tsx:186-207 | the table shows the current page of the sorted rows: entry i is sorted row (p-1)*20+i, there are min(20, n-(p-1)*20) of them, and none past the last page |
| Sessions.DisplayedInOrder | src/App.tsx:186-207 | an earlier displayed row may precede a later one by the chosen column's field in the chosen direction |
| Sessions.Scenario | src/App.tsx:27-166 | two January 2020 reports for one country aggregate to one row with 15 cases, 1 death, 15.0 and 1.0 per 1000 and totals 15 and 1; filtered to the 2nd only, the row holds 5 cases and 0 deaths but still the totals 15 and 1 |
| View.ToggleSort | src/App.tsx:180-184 | the chosen key becomes active; the direction is descending exactly when that key was active and ascending |
| View.ToggleSequence | src/App.tsx:180-184 | choosing a new key gives ascending, choosing it again descending, then ascending again; the other headers show ascending |
| View.ToggleTwice | src/App.tsx:180-184 | choosing the same key twice restores the sort state exactly when that key was already active |
| View.Compare | src/App.tsx:186-203 | a missing value compares equal to everything; the result is -1, 0 or 1; a smaller first value gives -1 ascending and 1 descending, a larger one 1 ascending and -1 descending; equal values compare 0 |
| View.CompareDirections | src/App.tsx:195-200 | the descending comparison is the negation of the ascending one |
| View.CompareRowsIsTotalPreorder | src/App.tsx:186-203 | for each column and direction the row comparator is total and transitive |
| View.SortRows | src/App.tsx:186 | the sorted copy has the same rows, each as often |
| View.SortRowsCorrect | src/App.tsx:186 | the sorted rows are a permutation of the rows, in comparator order, and rows that compare equal keep their relative order |
| View.SortedByCases | src/App.tsx:186-203 | sorted by cases, the counts are non-decreasing ascending and non-increasing descending |
| View.SortedByColumn | src/App.tsx:186-203 | for every column and direction, an earlier sorted row may precede a later one by that column's field: country by the string order, the counts and rates numerically |
| View.StrLessTransitive | src/App.tsx:195 | the string order of the country column is transitive |
| View.KeyOf | src/App.tsx:188-189 | the value compared for a column is that column's field of the row: the country as text, the cases, deaths and two rates as numbers |
| View.PageCount | src/App.tsx:263 | the page count is the least number of 20-row pages that holds all rows |
| View.Page | src/App.tsx:205-207 | a page holds at most 20 rows; entry i of page p is row (p-1)*20+i; a page that starts past the end is empty |
| View.PageBounds | src/App.tsx:205-207 | a page past the last is empty, every page up to the last holds rows, and page 1 holds the first min(20, n) rows |
| View.PagesCoverRows | src/App.tsx:205-207 | the pages 1 to the page count, concatenated, are exactly the rows |
| FilterForm.FilterOptions | src/components/FilterComponent.tsx:60-68 | every kept option contains the typed text ignoring case, and every such option is kept; when the typed text is non-empty and not an option, it is appended last after a subsequence of the options; otherwise the result is a subsequence of the options |
| FilterForm.EmptyInputKeepsOptions | src/components/FilterComponent.tsx:61-66 | empty typed text returns all options unchanged |
| FilterForm.TypedOfferedOnce | src/components/FilterComponent.tsx:64-66 | typed text that is not an option is offered exactly once; typed text that is an option is not added |
| FilterForm.SortedCountries | src/components/FilterComponent.tsx:36-38 | the list has one more entry than the available countries, contains 'All Countries', and is a permutation of them plus 'All Countries' |
| FilterForm.SortedCountriesOrdered | src/components/FilterComponent.tsx:36-38 | with a comparator that is a total preorder, the list is in its order |
| FilterForm.ApplyCountry | src/components/FilterComponent.tsx:27 | no selection is passed as `''`, and a selection as itself |
| FilterForm.ApplyRange | src/components/FilterComponent.tsx:23-27 | no picked dates pass an empty range, and otherwise each picked end is passed as picked |
| FilterForm.ClickApply | src/components/FilterComponent.tsx:26-28 | applying records the selected country (or `''`) and the picked range (or none), and reports a message exactly when only one of the two dates is picked; `ApplyEmptyIsClear` and `StartOnlyIsRejected` give the rows it shows |
| FilterForm.PickStart | src/components/FilterComponent.tsx:77 | the start picker sets the start date, keeps the end date if one was picked, and keeps the selection |
| FilterForm.PickEnd | src/components/FilterComponent.tsx:85 | the end picker sets the end date, keeps the start date if one was picked, and keeps the selection |
| FilterForm.SelectCountry | src/components/FilterComponent.tsx:55 | the country selector records the chosen country, or none, and keeps the picked dates |
| FilterForm.PickersFillRange | src/components/FilterComponent.tsx:19-24 | picking a start and an end, in either order, passes exactly those two dates |
| FilterForm.ClickClear | src/components/FilterComponent.tsx:30-34 | clearing empties the form and clears the application's filters |
| FilterForm.ApplyEmptyIsClear | src/components/FilterComponent.tsx:26-28 | applying an empty form shows the same rows and page as clearing |
| FilterForm.StartOnlyIsRejected | src/components/FilterComponent.tsx:26-28 | applying with only a start date reports the missing end and leaves the rows and the page alone |
| Chart.Segments | src/components/ChartComponent.tsx:18 | the segments are the pieces of the split on 'Z', in order, with exactly the blank ones dropped: every non-blank piece is kept as often as it occurs, and the segments contain no 'Z' |
| Chart.RowPoints | src/components/ChartComponent.tsx:17-23 | one point per segment, each carrying the row's cases and deaths, each dated with its segment re-terminated by 'Z' |
| Chart.ChartPoints | src/components/ChartComponent.tsx:16-25 | every point carries the cases and deaths of one of the rows |
| Chart.ChartPointsAppend | src/components/ChartComponent.tsx:17 | the points of two runs of rows are the first run's points followed by the second's |
| Chart.ChartPointsSingle | src/components/ChartComponent.tsx:16-25 | no rows give no points and one row gives exactly its own points, which with the append law fixes `flatMap` |
| Chart.EmptyDateRepNoPoints | src/components/ChartComponent.tsx:18 | an empty `dateRep` gives no point |
| Chart.SplitUndoesConcat | src/components/ChartComponent.tsx:18-20 | splitting a concatenation of ISO strings on 'Z' and re-appending 'Z' to each segment gives back the strings, in order |
| Chart.AggregatedRowPoints | src/components/ChartComponent.tsx:17-23 | for each aggregated row, the chart shows one point per record of that country in the subset, dated with that record's ISO date, in order |
| Chart.UniqueYears | src/components/ChartComponent.tsx:27-30 | the years are strictly ascending, with no repeats, and are exactly the years of the points |

## Left out

- Fetching the data (`src/api.ts`), React state, hooks, rendering, `console.log` and `window.location.reload` are not modelled. The fetched records are the argument of `Load`, and the component state is the `Session` record.
- Time zones are left out. A date is a (year, month, day) triple. `toISOString` is modelled as `YYYY-MM-DDT00:00:00.000Z` for that triple. The shift from local midnight to UTC is not modelled.
- JavaScript's `Date` roll-over is left out (`new Date(2020, 12, 40)` moves into the next year). So is the mapping of years 0-99 to 1900-1999. The parsed numbers are kept as read.
- Records.Normalise: a date outside the range JavaScript's `Date` can hold (after the year 275 760 or before 271 822 BC, or a field `Number()` reads as `Infinity`) makes `toISOString` throw, so the load fails; the model accepts every all-digit date. Dates.IsoString writes years after 9999 as plain digits, where `toISOString` writes `+0YYYYY`.
- `Number()` is modelled on decimal digit strings only, with the empty string read as 0. Signs, decimal points and surrounding white space are read as an invalid date, where JavaScript would accept them.
- The date pickers are left out: their time of day, their `disabledDate` rules (no date before 2019-01-01, no end before the start) and `moment`. A picked date is a calendar date, and the bounds are compared by day.
- `toLowerCase` is modelled on ASCII letters only. Strings are sequences of code points rather than UTF-16 units.
- `localeCompare`, `getFullYear` and `cleanCountryName` are parameters, because their results depend on the locale, the time zone or a file that is not part of this model.
- Floating point is left out. Rates are exact reals. The unguarded load-time division by a zero population, which gives NaN or Infinity, is the `None` of `Records.UnguardedRate`.
- The aggregation dictionary is modelled as an insertion-ordered list of rows. JavaScript would put integer-like country keys first in `Object.values`. It would also treat inherited keys such as `"constructor"` as already present. Neither is modelled.
- Chart.RowPoints: `new Date(s + 'Z').toISOString()` is taken to give back `s + 'Z'`, which holds for the ISO strings the aggregation writes.
- Chart.UniqueYears: the year of a point is `yearOf(dateRep)`, a parameter, since `getFullYear` reads the local time zone.
- `CustomTooltip.tsx`, and the cell formatting in `TableComponent.tsx` (`toFixed(2)`), are presentation only.
- Where the code and its documented intent differ, the model follows the code:
  - a zero population gives NaN or Infinity in the load-time rates;
  - the aggregated `dateRep` concatenates the ISO strings, which the chart relies on;
  - the lifetime totals are recomputed on every `processData` call, but always over the full records. On the first call these are the argument and afterwards the loaded records, so `ProcessData` takes both.

=== FILE: aggregation.dfy ===
/** `processData`: re-aggregation of a subset of the records into one summary
    row per country, with the lifetime totals attached. */
module Aggregation {
  import opened Wrappers
  import opened Seqs
  import opened Dates
  import opened Records
  import opened Totals

  /** A per-country summary row (the aggregated `CovidData` entry). `dateRep`
      is the concatenation of the ISO strings of the country's records. */
  datatype Row = Row(
    country: string,
    cases: int,
    deaths: int,
    casesPer1000: real,
    deathsPer1000: real,
    population: int,
    dateRep: string,
    totalCases: Option<int>,
    totalDeaths: Option<int>)

  /** The guarded rate `population > 0 ? (count / population) * 1000 : 0`. */
  function Rate(count: int, population: int): (r: real)
    ensures population <= 0 ==> r == 0.0
  {
    if population > 0 then count as real / population as real * 1000.0 else 0.0
  }

  /** With a positive population the rate is the count per 1000 inhabitants. */
  lemma RatePerThousand(count: int, population: int)
    requires population > 0
    ensures Rate(count, population) * population as real == count as real * 1000.0
  {
  }

  /** `totalDict[country]?.cases` (or `.deaths`): undefined on a lookup miss. */
  function LookupTotal(t: Totals, c: string, m: Metric): (r: Option<int>)
    ensures r.Some? <==> c in t
    ensures c in t ==> r.value == (if m == Cases then t[c].cases else t[c].deaths)
  {
    if c in t then Some(match m case Cases => t[c].cases case Deaths => t[c].deaths) else None
  }

  // ----------------------------------------------------- the fold itself

  /** The entry created when a country is first seen. */
  function NewRow(r: Record): (row: Row)
    ensures row.country == r.country && row.population == r.population
    ensures row.cases == 0 && row.deaths == 0 && row.dateRep == ""
  {
    Row(r.country, 0, 0, 0.0, 0.0, r.population, "", Some(0), Some(0))
  }

  /** One pass of the `data.forEach` body over an existing entry. */
  function Accumulate(row: Row, r: Record, t: Totals): (a: Row)
    ensures a.country == row.country && a.population == row.population
    ensures a.cases == row.cases + r.cases && a.deaths == row.deaths + r.deaths
    ensures a.dateRep == row.dateRep + IsoString(r.date)
    ensures a.casesPer1000 == Rate(a.cases, a.population) && a.deathsPer1000 == Rate(a.deaths, a.population)
    ensures a.totalCases == LookupTotal(t, r.country, Cases) && a.totalDeaths == LookupTotal(t, r.country, Deaths)
    ensures a.totalCases.Some? <==> r.country in t
  {
    var cases := row.cases + r.cases;
    var deaths := row.deaths + r.deaths;
    row.(cases := cases,
         deaths := deaths,
         totalDeaths := LookupTotal(t, r.country, Deaths),
         totalCases := LookupTotal(t, r.country, Cases),
         dateRep := row.dateRep + IsoString(r.date),
         casesPer1000 := Rate(cases, row.population),
         deathsPer1000 := Rate(deaths, row.population))
  }

  /** The country of each row, in order. */
  function RowCountries(rows: seq<Row>): (cs: seq<string>)
    ensures |cs| == |rows|
    decreases |rows|
  {
    if |rows| == 0 then [] else [rows[0].country] + RowCountries(rows[1..])
  }

  /** Updates the entry of `r`'s country in the insertion-ordered dictionary,
      creating it at the end when it is missing. */
  function Upsert(rows: seq<Row>, r: Record, t: Totals): seq<Row>
    decreases |rows|
  {
    if |rows| == 0 then [Accumulate(NewRow(r), r, t)]
    else if rows[0].country == r.country then [Accumulate(rows[0], r, t)] + rows[1..]
    else [rows[0]] + Upsert(rows[1..], r, t)
  }

  /** An update adds `r`'s country at the end when it is new and otherwise
      keeps the list of countries; rows of other countries are untouched. */
  lemma {:induction false} UpsertShape(rows: seq<Row>, r: Record, t: Totals)
    ensures var out := Upsert(rows, r, t);
      && RowCountries(out) ==
           (if r.country in RowCountries(rows) then RowCountries(rows) else RowCountries(rows) + [r.country])
      && |out| >= |rows|
      && (forall i :: 0 <= i < |rows| && rows[i].country != r.country ==> out[i] == rows[i])
    decreases |rows|
  {
    if |rows| > 0 {
      var out := Upsert(rows, r, t);
      if rows[0].country == r.country {
        assert out[1..] == rows[1..];
      } else {
        UpsertShape(rows[1..], r, t);
        assert out[1..] == Upsert(rows[1..], r, t);
      }
    }
  }

  /** A country not yet in the dictionary gets a fresh entry, accumulated
      once, after all the others. */
  lemma {:induction false} UpsertAppends(rows: seq<Row>, r: Record, t: Totals)
    requires r.country !in RowCountries(rows)
    ensures Upsert(rows, r, t) == rows + [Accumulate(NewRow(r), r, t)]
    decreases |rows|
  {
    if |rows| > 0 {
      UpsertAppends(rows[1..], r, t);
      assert rows == [rows[0]] + rows[1..];
    }
  }

  /** `Object.values(aggregatedData)` after `data.forEach(...)`. */
  function Aggregate(subset: seq<Record>, t: Totals): seq<Row>
    decreases |subset|
  {
    if |subset| == 0 then []
    else Upsert(Aggregate(subset[..|subset| - 1], t), subset[|subset| - 1], t)
  }

  /** The dictionary has one row per distinct country of the subset, in order
      of first appearance. */
  lemma {:induction false} AggregateCountries(subset: seq<Record>, t: Totals)
    ensures RowCountries(Aggregate(subset, t)) == CountriesByFirstAppearance(subset)
    decreases |subset|
  {
    if |subset| > 0 {
      var init := subset[..|subset| - 1];
      var x := subset[|subset| - 1];
      var rows := Aggregate(init, t);
      assert Aggregate(subset, t) == Upsert(rows, x, t);
      AggregateCountries(init, t);
      UpsertShape(rows, x, t);
      var before := CountryList(init);
      assert subset == init + [x];
      CountryListSnoc(init, x);
      DistinctSnoc(before, x.country);
      if x.country in before {
        assert x.country in RowCountries(rows);
      } else {
        assert x.country !in RowCountries(rows);
      }
    }
  }

  // ------------------------------------------- the reference definition

  /** The country of every record, in order. */
  function CountryList(data: seq<Record>): (cs: seq<string>)
    ensures |cs| == |data|
    ensures forall i :: 0 <= i < |data| ==> cs[i] == data[i].country
  {
    seq(|data|, i requires 0 <= i < |data| => data[i].country)
  }

  /** The countries of `data`, each once, in order of first appearance. */
  function CountriesByFirstAppearance(data: seq<Record>): seq<string>
  {
    Distinct(CountryList(data))
  }

  /** The population carried by the first record of country `c`. */
  function FirstPopulation(data: seq<Record>, c: string): int
    requires c in CountryList(data)
  {
    data[FirstIndex(CountryList(data), c)].population
  }

  /** The records of country `c`, in order. */
  function OfCountry(data: seq<Record>, c: string): (rs: seq<Record>)
    ensures forall i :: 0 <= i < |rs| ==> rs[i].country == c
    decreases |data|
  {
    if |data| == 0 then []
    else
      var last := data[|data| - 1];
      OfCountry(data[..|data| - 1], c) + (if last.country == c then [last] else [])
  }

  /** The ISO strings of the records' dates, concatenated. */
  function IsoConcat(rs: seq<Record>): string
    decreases |rs|
  {
    if |rs| == 0 then "" else IsoConcat(rs[..|rs| - 1]) + IsoString(rs[|rs| - 1].date)
  }

  /** What the row of country `c` must hold after aggregating `data`. */
  function Summary(data: seq<Record>, c: string, t: Totals): (row: Row)
    requires c in CountryList(data)
    ensures row.country == c
  {
    var cases := SumOf(data, c, Cases);
    var deaths := SumOf(data, c, Deaths);
    var pop := FirstPopulation(data, c);
    Row(c, cases, deaths, Rate(cases, pop), Rate(deaths, pop), pop,
        IsoConcat(OfCountry(data, c)), LookupTotal(t, c, Cases), LookupTotal(t, c, Deaths))
  }

  /** The summaries of the countries `cs`, in the order of `cs`. */
  function Summaries(cs: seq<string>, data: seq<Record>, t: Totals): (rows: seq<Row>)
    requires forall c :: c in cs ==> c in CountryList(data)
    ensures |rows| == |cs|
    decreases |cs|
  {
    if |cs| == 0 then [] else [Summary(data, cs[0], t)] + Summaries(cs[1..], data, t)
  }

  /** The `i`-th summary row is the summary of the `i`-th country. */
  lemma {:induction false} SummariesAt(cs: seq<string>, data: seq<Record>, t: Totals, i: nat)
    requires forall c :: c in cs ==> c in CountryList(data)
    requires i < |cs|
    ensures Summaries(cs, data, t)[i] == Summary(data, cs[i], t)
    ensures Summaries(cs, data, t)[i].country == cs[i]
    decreases |cs|
  {
    var rows := Summaries(cs, data, t);
    assert rows == [Summary(data, cs[0], t)] + Summaries(cs[1..], data, t);
    if i > 0 {
      SummariesAt(cs[1..], data, t, i - 1);
      assert rows[i] == Summaries(cs[1..], data, t)[i - 1];
      assert cs[1..][i - 1] == cs[i];
    }
  }

  // ----------------------------------------------------- the step lemmas

  lemma CountryListSnoc(data: seq<Record>, x: Record)
    ensures CountryList(data + [x]) == CountryList(data) + [x.country]
  {
  }

  lemma OfCountrySnoc(data: seq<Record>, x: Record, c: string)
    ensures OfCountry(data + [x], c) == OfCountry(data, c) + (if x.country == c then [x] else [])
  {
    assert (data + [x])[..|data|] == data;
  }

  lemma IsoConcatSnoc(rs: seq<Record>, x: Record)
    ensures IsoConcat(rs + [x]) == IsoConcat(rs) + IsoString(x.date)
  {
    assert (rs + [x])[..|rs|] == rs;
  }

  /** Appending a record of another country leaves a country's summary alone. */
  lemma SummarySnocOther(data: seq<Record>, x: Record, c: string, t: Totals)
    requires c in CountryList(data) && c != x.country
    ensures c in CountryList(data + [x])
    ensures Summary(data + [x], c, t) == Summary(data, c, t)
  {
    FirstPopulationSnoc(data, x, c);
    SumOfSnoc(data, x, c, Cases);
    SumOfSnoc(data, x, c, Deaths);
    OfCountrySnoc(data, x, c);
    assert OfCountry(data, c) + [] == OfCountry(data, c);
  }

  /** Appending a record keeps the population of a country already seen. */
  lemma FirstPopulationSnoc(data: seq<Record>, x: Record, c: string)
    requires c in CountryList(data)
    ensures c in CountryList(data + [x])
    ensures FirstPopulation(data + [x], c) == FirstPopulation(data, c)
  {
    CountryListSnoc(data, x);
    var k := FirstIndex(CountryList(data), c);
    assert CountryList(data + [x])[..k] == CountryList(data)[..k];
    FirstIndexUnique(CountryList(data + [x]), c, k);
    assert (data + [x])[k] == data[k];
  }

  /** The fields of a summary that follow from its counts. */
  lemma SummaryFields(data: seq<Record>, c: string, t: Totals)
    requires c in CountryList(data)
    ensures var s := Summary(data, c, t);
      && s.casesPer1000 == Rate(s.cases, s.population)
      && s.deathsPer1000 == Rate(s.deaths, s.population)
      && s.totalCases == LookupTotal(t, c, Cases)
      && s.totalDeaths == LookupTotal(t, c, Deaths)
  {
  }

  /** A row that agrees with `Accumulate(s0, x, t)` field by field is that row. */
  lemma AccumulateByFields(s0: Row, s1: Row, x: Record, t: Totals)
    requires s1.country == s0.country
    requires s1.cases == s0.cases + x.cases && s1.deaths == s0.deaths + x.deaths
    requires s1.population == s0.population
    requires s1.casesPer1000 == Rate(s1.cases, s1.population)
    requires s1.deathsPer1000 == Rate(s1.deaths, s1.population)
    requires s1.dateRep == s0.dateRep + IsoString(x.date)
    requires s1.totalCases == LookupTotal(t, x.country, Cases)
    requires s1.totalDeaths == LookupTotal(t, x.country, Deaths)
    ensures s1 == Accumulate(s0, x, t)
  {
  }

  /** Appending a record of a country already seen adds to its counts. */
  lemma SummaryCountsSnoc(data: seq<Record>, x: Record, t: Totals)
    requires x.country in CountryList(data)
    ensures x.country in CountryList(data + [x])
    ensures Summary(data + [x], x.country, t).cases == Summary(data, x.country, t).cases + x.cases
    ensures Summary(data + [x], x.country, t).deaths == Summary(data, x.country, t).deaths + x.deaths
    ensures Summary(data + [x], x.country, t).population == Summary(data, x.country, t).population
  {
    var c := x.country;
    FirstPopulationSnoc(data, x, c);
    SumOfSnoc(data, x, c, Cases);
    SumOfSnoc(data, x, c, Deaths);
  }

  /** Appending a record of a country already seen appends its ISO date. */
  lemma SummaryDateRepSnoc(data: seq<Record>, x: Record, t: Totals)
    requires x.country in CountryList(data)
    ensures x.country in CountryList(data + [x])
    ensures Summary(data + [x], x.country, t).dateRep == Summary(data, x.country, t).dateRep + IsoString(x.date)
  {
    var c := x.country;
    FirstPopulationSnoc(data, x, c);
    OfCountrySnoc(data, x, c);
    IsoConcatSnoc(OfCountry(data, c), x);
  }

  /** Appending a record of a country already seen accumulates into its summary. */
  lemma SummarySnocSame(data: seq<Record>, x: Record, t: Totals)
    requires x.country in CountryList(data)
    ensures x.country in CountryList(data + [x])
    ensures Summary(data + [x], x.country, t) == Accumulate(Summary(data, x.country, t), x, t)
  {
    SummaryCountsSnoc(data, x, t);
    SummaryDateRepSnoc(data, x, t);
    SummaryFields(data + [x], x.country, t);
    AccumulateByFields(Summary(data, x.country, t), Summary(data + [x], x.country, t), x, t);
  }

  /** The records of a country that does not occur. */
  lemma {:induction false} OfCountryAbsent(data: seq<Record>, c: string)
    requires c !in CountryList(data)
    ensures OfCountry(data, c) == []
    decreases |data|
  {
    if |data| > 0 {
      assert CountryList(data[..|data| - 1]) == CountryList(data)[..|data| - 1];
      OfCountryAbsent(data[..|data| - 1], c);
    }
  }

  /** A country that is not in the country list has no records. */
  lemma AbsentCountry(data: seq<Record>, c: string)
    requires c !in CountryList(data)
    ensures c !in CountriesIn(data)
  {
    forall r | r in data ensures r.country != c {
      var i :| 0 <= i < |data| && data[i] == r;
      assert CountryList(data)[i] == r.country;
    }
  }

  /** The first record of a country, once appended, gives its population. */
  lemma FirstPopulationNew(data: seq<Record>, x: Record)
    requires x.country !in CountryList(data)
    ensures x.country in CountryList(data + [x])
    ensures FirstPopulation(data + [x], x.country) == x.population
  {
    CountryListSnoc(data, x);
    assert CountryList(data + [x])[..|data|] == CountryList(data);
    FirstIndexUnique(CountryList(data + [x]), x.country, |data|);
  }

  /** The count of a country whose first record is appended is that record's. */
  lemma SumOfNew(data: seq<Record>, x: Record, m: Metric)
    requires x.country !in CountryList(data)
    ensures SumOf(data + [x], x.country, m) == Count(x, m)
  {
    AbsentCountry(data, x.country);
    SumOfAbsent(data, x.country, m);
    SumOfSnoc(data, x, x.country, m);
  }

  /** The counts of a country whose first record is appended are that record's. */
  lemma SummaryCountsNew(data: seq<Record>, x: Record, t: Totals)
    requires x.country !in CountryList(data)
    ensures x.country in CountryList(data + [x])
    ensures Summary(data + [x], x.country, t).cases == x.cases
    ensures Summary(data + [x], x.country, t).deaths == x.deaths
    ensures Summary(data + [x], x.country, t).population == x.population
  {
    FirstPopulationNew(data, x);
    SumOfNew(data, x, Cases);
    SumOfNew(data, x, Deaths);
  }

  /** The dates of a country whose first record is appended are that record's. */
  lemma SummaryDateRepNew(data: seq<Record>, x: Record, t: Totals)
    requires x.country !in CountryList(data)
    ensures x.country in CountryList(data + [x])
    ensures Summary(data + [x], x.country, t).dateRep == "" + IsoString(x.date)
  {
    var c := x.country;
    CountryListSnoc(data, x);
    OfCountryAbsent(data, c);
    OfCountrySnoc(data, x, c);
    assert [] + [x] == [x];
    IsoConcatSnoc([], x);
  }

  /** Appending the first record of a country gives the entry a new row gets. */
  lemma SummarySnocNew(data: seq<Record>, x: Record, t: Totals)
    requires x.country !in CountryList(data)
    ensures x.country in CountryList(data + [x])
    ensures Summary(data + [x], x.country, t) == Accumulate(NewRow(x), x, t)
  {
    SummaryCountsNew(data, x, t);
    SummaryDateRepNew(data, x, t);
    SummaryFields(data + [x], x.country, t);
    AccumulateByFields(NewRow(x), Summary(data + [x], x.country, t), x, t);
  }

  /** Appending a record of a country outside `cs` leaves their summaries alone. */
  lemma {:induction false} SummariesSnocOthers(cs: seq<string>, data: seq<Record>, x: Record, t: Totals)
    requires x.country !in cs
    requires forall c :: c in cs ==> c in CountryList(data)
    ensures forall c :: c in cs ==> c in CountryList(data + [x])
    ensures Summaries(cs, data + [x], t) == Summaries(cs, data, t)
    decreases |cs|
  {
    CountryListSnoc(data, x);
    if |cs| > 0 {
      SummarySnocOther(data, x, cs[0], t);
      SummariesSnocOthers(cs[1..], data, x, t);
    }
  }

  /** Upserting a record whose country already has a row accumulates into that
      row and leaves the others alone. */
  lemma {:induction false} UpsertSummariesHit(cs: seq<string>, data: seq<Record>, x: Record, t: Totals)
    requires NoDup(cs) && x.country in cs
    requires forall c :: c in cs ==> c in CountryList(data)
    ensures forall c :: c in cs ==> c in CountryList(data + [x])
    ensures Upsert(Summaries(cs, data, t), x, t) == Summaries(cs, data + [x], t)
    decreases |cs|
  {
    CountryListSnoc(data, x);
    var rows := Summaries(cs, data, t);
    assert rows[0] == Summary(data, cs[0], t);
    assert rows[1..] == Summaries(cs[1..], data, t);
    if cs[0] == x.country {
      assert x.country !in cs[1..] by {
        forall j | 0 <= j < |cs[1..]| ensures cs[1..][j] != cs[0] {
          assert cs[1..][j] == cs[j + 1];
        }
      }
      SummarySnocSame(data, x, t);
      SummariesSnocOthers(cs[1..], data, x, t);
    } else {
      assert NoDup(cs[1..]) by {
        forall i, j | 0 <= i < j < |cs[1..]| ensures cs[1..][i] != cs[1..][j] {
          assert cs[1..][i] == cs[i + 1] && cs[1..][j] == cs[j + 1];
        }
      }
      SummarySnocOther(data, x, cs[0], t);
      UpsertSummariesHit(cs[1..], data, x, t);
    }
  }

  /** Upserting a record of a country seen for the first time appends its row. */
  lemma {:induction false} UpsertSummariesMiss(cs: seq<string>, data: seq<Record>, x: Record, t: Totals)
    requires x.country !in cs && x.country !in CountryList(data)
    requires forall c :: c in cs ==> c in CountryList(data)
    ensures forall c :: c in cs + [x.country] ==> c in CountryList(data + [x])
    ensures Upsert(Summaries(cs, data, t), x, t) == Summaries(cs + [x.country], data + [x], t)
    decreases |cs|
  {
    CountryListSnoc(data, x);
    var cs' := cs + [x.country];
    if |cs| == 0 {
      SummarySnocNew(data, x, t);
      assert cs'[1..] == [];
    } else {
      assert cs'[0] == cs[0] && cs'[1..] == cs[1..] + [x.country];
      SummarySnocOther(data, x, cs[0], t);
      UpsertSummariesMiss(cs[1..], data, x, t);
    }
  }

  /** Upserting a record into the summaries of a prefix gives the summaries of
      the prefix extended by that record. */
  lemma UpsertSummaries(cs: seq<string>, data: seq<Record>, x: Record, t: Totals)
    requires NoDup(cs)
    requires forall c :: c in cs ==> c in CountryList(data)
    requires x.country in CountryList(data) ==> x.country in cs
    ensures forall c :: c in cs ==> c in CountryList(data + [x])
    ensures x.country in CountryList(data + [x])
    ensures Upsert(Summaries(cs, data, t), x, t)
         == Summaries(if x.country in cs then cs else cs + [x.country], data + [x], t)
  {
    CountryListSnoc(data, x);
    if x.country in cs {
      UpsertSummariesHit(cs, data, x, t);
    } else {
      UpsertSummariesMiss(cs, data, x, t);
    }
  }

  /** Aggregation gives exactly one row per distinct country of `subset`, in
      order of first appearance; each row holds the country's sums over
      `subset`, the population of its first record, the guarded rates, the
      concatenated ISO dates, and the totals looked up in `t`. */
  lemma {:induction false} AggregateIsSummaries(subset: seq<Record>, t: Totals)
    ensures forall c :: c in CountriesByFirstAppearance(subset) ==> c in CountryList(subset)
    ensures Aggregate(subset, t) == Summaries(CountriesByFirstAppearance(subset), subset, t)
    decreases |subset|
  {
    if |subset| > 0 {
      var init := subset[..|subset| - 1];
      var x := subset[|subset| - 1];
      assert subset == init + [x];
      AggregateIsSummaries(init, t);
      CountryListSnoc(init, x);
      DistinctSnoc(CountryList(init), x.country);
      UpsertSummaries(CountriesByFirstAppearance(init), init, x, t);
    }
  }
}

=== FILE: chart.dfy ===
/** The chart view: each aggregated row's concatenated ISO dates are split
    back into one point per date, and the distinct years give the axis ticks. */
module Chart {
  import opened Strings
  import opened Seqs
  import opened Sorting
  import opened Dates
  import opened Records
  import opened Totals
  import opened Aggregation

  /** One point of the line chart. */
  datatype Point = Point(dateRep: string, cases: int, deaths: int)

  function NonBlankTest(): string -> bool
  {
    s => !IsBlank(s)
  }

  /** `dateRep.split('Z').filter(s => s.trim() !== '')`. */
  function Segments(dateRep: string): (segs: seq<string>)
    ensures forall i :: 0 <= i < |segs| ==> !IsBlank(segs[i]) && 'Z' !in segs[i]
    ensures IsSubseq(segs, Split(dateRep, 'Z'))
    ensures forall x :: multiset(segs)[x] == if IsBlank(x) then 0 else multiset(Split(dateRep, 'Z'))[x]
  {
    var pieces := Split(dateRep, 'Z');
    var segs := Keep(pieces, NonBlankTest());
    assert forall i :: 0 <= i < |segs| ==> segs[i] in multiset(pieces);
    segs
  }

  /** The points of one row: one per segment, each re-terminated by `Z`
      (the ISO re-formatting of an ISO string is the string itself), all
      carrying the row's own counts. */
  function RowPoints(row: Row): (ps: seq<Point>)
    ensures |ps| == |Segments(row.dateRep)|
    ensures forall i :: 0 <= i < |ps| ==> ps[i].cases == row.cases && ps[i].deaths == row.deaths
    ensures forall i :: 0 <= i < |ps| ==> ps[i].dateRep == Segments(row.dateRep)[i] + "Z"
  {
    var segs := Segments(row.dateRep);
    seq(|segs|, i requires 0 <= i < |segs| => Point(segs[i] + "Z", row.cases, row.deaths))
  }

  /** `data.flatMap(...)`: the rows' points, row after row. */
  function ChartPoints(rows: seq<Row>): (ps: seq<Point>)
    ensures forall p :: p in ps ==> exists r :: r in rows && p.cases == r.cases && p.deaths == r.deaths
    decreases |rows|
  {
    if |rows| == 0 then []
    else
      var head := RowPoints(rows[0]);
      var tail := ChartPoints(rows[1..]);
      assert forall p :: p in head ==> p.cases == rows[0].cases && p.deaths == rows[0].deaths;
      assert forall r :: r in rows[1..] ==> r in rows;
      head + tail
  }

  /** The points of two runs of rows are the points of the first run followed
      by those of the second. */
  lemma {:induction false} ChartPointsAppend(a: seq<Row>, b: seq<Row>)
    ensures ChartPoints(a + b) == ChartPoints(a) + ChartPoints(b)
    decreases |a|
  {
    if |a| == 0 {
      assert a + b == b;
    } else {
      assert (a + b)[0] == a[0] && (a + b)[1..] == a[1..] + b;
      ChartPointsAppend(a[1..], b);
    }
  }

  /** No rows give no points, and a single row gives exactly its own points;
      with `ChartPointsAppend` this fixes the points of every run of rows. */
  lemma ChartPointsSingle(r: Row)
    ensures ChartPoints([]) == []
    ensures ChartPoints([r]) == RowPoints(r)
  {
  }

  /** A row whose `dateRep` is empty gives no point. */
  lemma EmptyDateRepNoPoints(row: Row)
    requires row.dateRep == ""
    ensures RowPoints(row) == []
  {
    assert Split("", 'Z') == [""];
  }

  // -------------------------------------------------- the round trip

  /** A string shaped like an ISO timestamp: its only `Z` ends it, and the
      text before it is not blank. */
  predicate IsoLike(s: string)
  {
    |s| > 0 && s[|s| - 1] == 'Z' && 'Z' !in s[..|s| - 1] && !IsBlank(s[..|s| - 1])
  }

  /** The strings one after another. */
  function Concat(strs: seq<string>): string
    decreases |strs|
  {
    if |strs| == 0 then "" else strs[0] + Concat(strs[1..])
  }

  lemma {:induction false} ConcatSnoc(strs: seq<string>, x: string)
    ensures Concat(strs + [x]) == Concat(strs) + x
    decreases |strs|
  {
    if |strs| == 0 {
      assert Concat([x]) == x + Concat([]);
    } else {
      assert (strs + [x])[1..] == strs[1..] + [x];
      ConcatSnoc(strs[1..], x);
    }
  }

  /** An ISO string without its final `Z`. */
  function Body(s: string): (b: string)
    requires IsoLike(s)
    ensures b + "Z" == s
    ensures 'Z' !in b && !IsBlank(b)
  {
    assert s == s[..|s| - 1] + [s[|s| - 1]];
    s[..|s| - 1]
  }

  /** The bodies of ISO strings. */
  function Bodies(strs: seq<string>): (bs: seq<string>)
    requires forall i :: 0 <= i < |strs| ==> IsoLike(strs[i])
    ensures |bs| == |strs|
    decreases |strs|
  {
    if |strs| == 0 then [] else [Body(strs[0])] + Bodies(strs[1..])
  }

  lemma {:induction false} BodiesAt(strs: seq<string>, i: nat)
    requires forall i :: 0 <= i < |strs| ==> IsoLike(strs[i])
    requires i < |strs|
    ensures Bodies(strs)[i] == Body(strs[i])
    decreases |strs|
  {
    if i > 0 {
      BodiesAt(strs[1..], i - 1);
      assert strs[1..][i - 1] == strs[i];
    }
  }

  /** The bodies are non-blank and free of `Z`, and re-terminating them gives
      back the ISO strings. */
  lemma BodiesShape(strs: seq<string>)
    requires forall i :: 0 <= i < |strs| ==> IsoLike(strs[i])
    ensures forall i :: 0 <= i < |strs| ==>
      Bodies(strs)[i] + "Z" == strs[i] && 'Z' !in Bodies(strs)[i] && !IsBlank(Bodies(strs)[i])
  {
    forall i | 0 <= i < |strs|
      ensures Bodies(strs)[i] + "Z" == strs[i] && 'Z' !in Bodies(strs)[i] && !IsBlank(Bodies(strs)[i])
    {
      BodiesAt(strs, i);
    }
  }

  /** Concatenated ISO strings are their bodies joined by `Z`, with an empty
      piece after the last `Z`. */
  lemma {:induction false} ConcatIsJoin(strs: seq<string>)
    requires forall i :: 0 <= i < |strs| ==> IsoLike(strs[i])
    ensures Concat(strs) == Join(Bodies(strs) + [""], 'Z')
    decreases |strs|
  {
    if |strs| > 0 {
      var bs := Bodies(strs);
      ConcatIsJoin(strs[1..]);
      assert bs == [Body(strs[0])] + Bodies(strs[1..]);
      assert (bs + [""])[1..] == Bodies(strs[1..]) + [""];
      assert (bs + [""])[0] == Body(strs[0]);
      assert strs[0] == Body(strs[0]) + ['Z'];
    }
  }

  /** Dropping the blank pieces from the bodies and the final empty piece
      leaves the bodies. */
  lemma KeepBodies(bs: seq<string>)
    requires forall i :: 0 <= i < |bs| ==> !IsBlank(bs[i])
    ensures Keep(bs + [""], NonBlankTest()) == bs
  {
    KeepAppend(bs, [""], NonBlankTest());
    KeepAll(bs, NonBlankTest());
    assert [""][1..] == [];
    assert Keep([""], NonBlankTest()) == [];
    assert bs + [] == bs;
  }

  /** Splitting concatenated ISO strings on `Z` and dropping blank pieces
      gives their bodies, in order. */
  lemma SegmentsOfConcat(strs: seq<string>)
    requires forall i :: 0 <= i < |strs| ==> IsoLike(strs[i])
    ensures Segments(Concat(strs)) == Bodies(strs)
  {
    var bs := Bodies(strs);
    ConcatIsJoin(strs);
    BodiesShape(strs);
    assert forall i :: 0 <= i < |bs + [""]| ==> 'Z' !in (bs + [""])[i];
    JoinThenSplit(bs + [""], 'Z');
    assert Split(Concat(strs), 'Z') == bs + [""];
    KeepBodies(bs);
  }

  /** The chart split undoes the concatenation: re-terminating each segment
      gives back exactly the concatenated ISO strings, in order. */
  lemma SplitUndoesConcat(strs: seq<string>)
    requires forall i :: 0 <= i < |strs| ==> IsoLike(strs[i])
    ensures |Segments(Concat(strs))| == |strs|
    ensures forall i :: 0 <= i < |strs| ==> Segments(Concat(strs))[i] + "Z" == strs[i]
  {
    SegmentsOfConcat(strs);
    BodiesShape(strs);
  }

  /** The ISO strings of records' dates. */
  function IsoStrings(rs: seq<Record>): (strs: seq<string>)
    ensures |strs| == |rs|
    ensures forall i :: 0 <= i < |strs| ==> strs[i] == IsoString(rs[i].date)
  {
    seq(|rs|, i requires 0 <= i < |rs| => IsoString(rs[i].date))
  }

  lemma IsoStringsSnoc(rs: seq<Record>)
    requires |rs| > 0
    ensures IsoStrings(rs) == IsoStrings(rs[..|rs| - 1]) + [IsoString(rs[|rs| - 1].date)]
  {
    var a, b := IsoStrings(rs), IsoStrings(rs[..|rs| - 1]) + [IsoString(rs[|rs| - 1].date)];
    assert |a| == |b|;
    forall k | 0 <= k < |a| ensures a[k] == b[k] {
      if k < |rs| - 1 {
        assert rs[..|rs| - 1][k] == rs[k];
      }
    }
  }

  lemma {:induction false} IsoConcatIsConcat(rs: seq<Record>)
    ensures IsoConcat(rs) == Concat(IsoStrings(rs))
    decreases |rs|
  {
    if |rs| > 0 {
      var init := rs[..|rs| - 1];
      var last := IsoString(rs[|rs| - 1].date);
      IsoConcatIsConcat(init);
      IsoStringsSnoc(rs);
      ConcatSnoc(IsoStrings(init), last);
    }
  }

  /** Every ISO string of a date is shaped like one. */
  lemma IsoStringsAreIsoLike(rs: seq<Record>)
    ensures forall j :: 0 <= j < |rs| ==> IsoLike(IsoStrings(rs)[j])
  {
    forall j | 0 <= j < |rs| ensures IsoLike(IsoStrings(rs)[j]) {
      var d := rs[j].date;
      assert IsoStrings(rs)[j] == IsoString(d);
    }
  }

  /** A row whose `dateRep` concatenates the ISO strings of `rs` gives one
      point per record of `rs`, dated with that record's date, in order. */
  lemma PointsOfIsoConcat(row: Row, rs: seq<Record>)
    requires row.dateRep == IsoConcat(rs)
    ensures |RowPoints(row)| == |rs|
    ensures forall j :: 0 <= j < |rs| ==> RowPoints(row)[j].dateRep == IsoString(rs[j].date)
  {
    var strs := IsoStrings(rs);
    IsoConcatIsConcat(rs);
    IsoStringsAreIsoLike(rs);
    SplitUndoesConcat(strs);
    var segs := Segments(row.dateRep);
    forall j | 0 <= j < |rs| ensures RowPoints(row)[j].dateRep == IsoString(rs[j].date) {
      assert RowPoints(row)[j].dateRep == segs[j] + "Z";
      assert segs[j] + "Z" == strs[j];
    }
  }

  /** The chart shows, for the row of each country, one point per record of
      that country in the aggregated subset, dated with that record's date in
      order and carrying the row's counts. */
  lemma AggregatedRowPoints(subset: seq<Record>, t: Totals, i: nat)
    requires i < |Aggregate(subset, t)|
    ensures var row := Aggregate(subset, t)[i];
      var rs := OfCountry(subset, row.country);
      && |RowPoints(row)| == |rs|
      && forall j :: 0 <= j < |rs| ==> RowPoints(row)[j].dateRep == IsoString(rs[j].date)
  {
    var cs := CountriesByFirstAppearance(subset);
    AggregateIsSummaries(subset, t);
    SummariesAt(cs, subset, t, i);
    var row := Aggregate(subset, t)[i];
    assert row.dateRep == IsoConcat(OfCountry(subset, row.country));
    PointsOfIsoConcat(row, OfCountry(subset, row.country));
  }

  // ------------------------------------------------------------- years

  /** `(a, b) => a - b`. */
  function YearOrder(): (int, int) -> int
  {
    (a: int, b: int) => a - b
  }

  lemma YearOrderIsTotalPreorder()
    ensures IsTotalPreorder(YearOrder())
  {
  }

  /** The year of every point; reading the year off a date string is a
      parameter (it depends on the local time zone). */
  function Years(points: seq<Point>, yearOf: string -> int): (ys: seq<int>)
    ensures |ys| == |points|
    ensures forall i :: 0 <= i < |ys| ==> ys[i] == yearOf(points[i].dateRep)
  {
    seq(|points|, i requires 0 <= i < |points| => yearOf(points[i].dateRep))
  }

  /** A sequence sorted by `a - b` without repetitions is strictly ascending. */
  lemma SortedNoDupAscending(ys: seq<int>)
    requires Sorted(ys, YearOrder()) && NoDup(ys)
    ensures forall i, j :: 0 <= i < j < |ys| ==> ys[i] < ys[j]
  {
    forall i, j | 0 <= i < j < |ys| ensures ys[i] < ys[j] {
      assert YearOrder()(ys[i], ys[j]) <= 0;
      assert ys[i] != ys[j];
    }
  }

  /** Sorting years without repetitions by `a - b` makes them strictly ascending. */
  lemma SortedDistinctAscending(d: seq<int>)
    requires NoDup(d)
    ensures forall i, j :: 0 <= i < j < |Sort(d, YearOrder())| ==>
              Sort(d, YearOrder())[i] < Sort(d, YearOrder())[j]
  {
    var ys := Sort(d, YearOrder());
    YearOrderIsTotalPreorder();
    SortSorted(d, YearOrder());
    NoDupPermutation(d, ys);
    SortedNoDupAscending(ys);
  }

  /** `getUniqueYears`: each year once, ascending. */
  function UniqueYears(points: seq<Point>, yearOf: string -> int): (ys: seq<int>)
    ensures forall i, j :: 0 <= i < j < |ys| ==> ys[i] < ys[j]
    ensures forall y :: y in ys <==> y in Years(points, yearOf)
  {
    var d := Distinct(Years(points, yearOf));
    var ys := Sort(d, YearOrder());
    SortedDistinctAscending(d);
    assert forall y :: y in ys <==> y in multiset(d);
    ys
  }
}

=== FILE: dates.dfy ===
/** Calendar dates as the application reads, writes and compares them. */
module Dates {
  import opened Wrappers
  import opened Strings

  /** A calendar date; the order of the fields is the order of comparison. */
  datatype Date = Date(year: nat, month: nat, day: nat)

  /** Chronological order of dates: year, then month, then day. */
  predicate OnOrBefore(a: Date, b: Date)
  {
    || a.year < b.year
    || (a.year == b.year && a.month < b.month)
    || (a.year == b.year && a.month == b.month && a.day <= b.day)
  }

  /** `OnOrBefore` is a total order, so inclusive ranges behave as expected. */
  lemma OnOrBeforeIsTotalOrder(a: Date, b: Date, c: Date)
    ensures OnOrBefore(a, a)
    ensures OnOrBefore(a, b) || OnOrBefore(b, a)
    ensures OnOrBefore(a, b) && OnOrBefore(b, a) ==> a == b
    ensures OnOrBefore(a, b) && OnOrBefore(b, c) ==> OnOrBefore(a, c)
  {
  }

  /** The raw `dateRep` field, `DD/MM/YYYY`, split on `/` and read as day,
      month, year. Fewer than three fields, or a field that is not a decimal
      number, gives an invalid date (`None`); fields after the third are ignored. */
  function ParseDateRep(s: string): (r: Option<Date>)
    ensures r.Some? <==> var f := Split(s, '/');
              |f| >= 3 && AllDigits(f[0]) && AllDigits(f[1]) && AllDigits(f[2])
    ensures r.Some? ==> var f := Split(s, '/');
              r.value.day == ParseNat(f[0]) && r.value.month == ParseNat(f[1]) && r.value.year == ParseNat(f[2])
  {
    var f := Split(s, '/');
    if |f| >= 3 && AllDigits(f[0]) && AllDigits(f[1]) && AllDigits(f[2]) then
      Some(Date(ParseNat(f[2]), ParseNat(f[1]), ParseNat(f[0])))
    else
      None
  }

  /** The `DD/MM/YYYY` text of a date, as the data source writes it. */
  function FormatDateRep(d: Date): string
  {
    Digits(d.day, 2) + "/" + Digits(d.month, 2) + "/" + Digits(d.year, 4)
  }

  lemma DigitsHaveNoSeparator(n: nat, w: nat, sep: char)
    requires !IsDigit(sep)
    ensures sep !in Digits(n, w)
  {
    var s := Digits(n, w);
    assert forall i :: 0 <= i < |s| ==> s[i] != sep;
  }

  /** Parsing reads back the day, month and year that were written, in that order. */
  lemma ParseFormat(d: Date)
    ensures ParseDateRep(FormatDateRep(d)) == Some(d)
  {
    var dd, mm, yy := Digits(d.day, 2), Digits(d.month, 2), Digits(d.year, 4);
    DigitsHaveNoSeparator(d.day, 2, '/');
    DigitsHaveNoSeparator(d.month, 2, '/');
    DigitsHaveNoSeparator(d.year, 4, '/');
    assert Join([dd, mm, yy], '/') == FormatDateRep(d) by {
      assert Join([dd, mm, yy][1..], '/') == mm + "/" + yy by {
        assert [dd, mm, yy][1..] == [mm, yy];
        assert [mm, yy][1..] == [yy];
      }
    }
    JoinThenSplit([dd, mm, yy], '/');
    ParseDigits(d.day, 2);
    ParseDigits(d.month, 2);
    ParseDigits(d.year, 4);
  }

  /** A single digit, padded to width 2, gets one leading zero. */
  lemma OneDigitPadded(n: nat)
    requires n < 10
    ensures Digits(n, 2) == ['0', DigitChar(n)]
  {
    assert n / 10 == 0 && n % 10 == n;
    assert Digits(n, 2) == Digits(0, 1) + [DigitChar(n)];
  }

  /** The 2nd of January 2020 is written "02/01/2020". */
  lemma FormatSecondJanuary()
    ensures FormatDateRep(Date(2020, 1, 2)) == "02/01/2020"
  {
    OneDigitPadded(2);
    OneDigitPadded(1);
    assert Digits(2020, 4) == Digits(202, 3) + ['0'];
    assert Digits(202, 3) == Digits(20, 2) + ['2'];
    assert Digits(20, 2) == Digits(2, 1) + ['0'];
    assert Digits(2020, 4) == "2020";
  }

  /** The data source's "02/01/2020" is the 2nd of January 2020, not the 1st of February. */
  lemma DayComesFirst()
    ensures ParseDateRep("02/01/2020") == Some(Date(2020, 1, 2))
  {
    ParseFormat(Date(2020, 1, 2));
    FormatSecondJanuary();
  }

  /** `date.toISOString()` of a date at midnight: `YYYY-MM-DDT00:00:00.000Z`. */
  function IsoString(d: Date): (r: string)
    ensures |r| > 0 && r[|r| - 1] == 'Z'
    ensures 'Z' !in r[..|r| - 1]
    ensures !IsBlank(r[..|r| - 1])
  {
    var body := Digits(d.year, 4) + "-" + Digits(d.month, 2) + "-" + Digits(d.day, 2) + "T00:00:00.000";
    DigitsHaveNoSeparator(d.year, 4, 'Z');
    DigitsHaveNoSeparator(d.month, 2, 'Z');
    DigitsHaveNoSeparator(d.day, 2, 'Z');
    assert body[0] == Digits(d.year, 4)[0];
    assert (body + "Z")[..|body + "Z"| - 1] == body;
    body + "Z"
  }

  /** The day field of an ISO string splits off the time on 'T'. */
  lemma IsoDayField(day: nat)
    ensures Split(Digits(day, 2) + "T00:00:00.000Z", 'T') == [Digits(day, 2), "00:00:00.000Z"]
  {
    var dd, time := Digits(day, 2), "00:00:00.000Z";
    DigitsHaveNoSeparator(day, 2, 'T');
    assert 'T' !in time by {
      assert forall i :: 0 <= i < |time| ==> time[i] != 'T';
    }
    assert [dd, time][1..] == [time];
    assert Join([dd, time], 'T') == dd + "T00:00:00.000Z";
    JoinThenSplit([dd, time], 'T');
  }

  /** An ISO string splits on '-' into the year, the month, and the day
      followed by the time. */
  lemma IsoFields(d: Date)
    ensures Split(IsoString(d), '-')
         == [Digits(d.year, 4), Digits(d.month, 2), Digits(d.day, 2) + "T00:00:00.000Z"]
  {
    var yy, mm, rest := Digits(d.year, 4), Digits(d.month, 2), Digits(d.day, 2) + "T00:00:00.000Z";
    DigitsHaveNoSeparator(d.year, 4, '-');
    DigitsHaveNoSeparator(d.month, 2, '-');
    DigitsHaveNoSeparator(d.day, 2, '-');
    assert '-' !in rest by {
      assert forall i :: 0 <= i < |rest| ==> rest[i] != '-';
    }
    var pieces := [yy, mm, rest];
    assert Join(pieces, '-') == IsoString(d) by {
      assert pieces[1..] == [mm, rest];
      assert [mm, rest][1..] == [rest];
      assert Join(pieces[1..], '-') == mm + "-" + rest;
    }
    JoinThenSplit(pieces, '-');
  }

  /** Different dates have different ISO strings: the string identifies its date. */
  lemma IsoStringInjective(a: Date, b: Date)
    requires IsoString(a) == IsoString(b)
    ensures a == b
  {
    IsoFields(a);
    IsoFields(b);
    IsoDayField(a.day);
    IsoDayField(b.day);
    ParseDigits(a.year, 4);
    ParseDigits(b.year, 4);
    ParseDigits(a.month, 2);
    ParseDigits(b.month, 2);
    ParseDigits(a.day, 2);
    ParseDigits(b.day, 2);
  }
}

=== FILE: filter_form.dfy ===
/** The filter form: the country selector's option list and matching, the
    sorted country list, and the arguments its buttons pass on. */
module FilterForm {
  import opened Wrappers
  import opened Strings
  import opened Seqs
  import opened Sorting
  import opened Dates
  import opened Filtering
  import opened Sessions

  // ------------------------------------------------- the option filter

  /** An option stays in the list when it contains the typed text, ignoring case. */
  predicate OptionMatches(input: string, option: string)
  {
    Includes(Lower(option), Lower(input))
  }

  function OptionTest(input: string): string -> bool
  {
    o => OptionMatches(input, o)
  }

  /** The typed text is offered as an extra last entry when it is non-empty
      and not exactly (case-sensitively) one of the options. */
  predicate OffersTyped(options: seq<string>, input: string)
  {
    input != "" && input !in options
  }

  lemma IncludesItself(s: string)
    ensures Includes(s, s)
  {
    assert s <= s[0..];
  }

  lemma IncludesEmpty(s: string)
    ensures Includes(s, "")
  {
    assert "" <= s[0..];
  }

  /** `filterOptions(options, { inputValue })`. */
  function FilterOptions(options: seq<string>, input: string): (r: seq<string>)
    ensures forall i :: 0 <= i < |r| ==> OptionMatches(input, r[i])
    ensures forall x :: x in options && OptionMatches(input, x) ==> x in r
    ensures OffersTyped(options, input) ==>
              |r| > 0 && r[|r| - 1] == input && IsSubseq(r[..|r| - 1], options)
    ensures !OffersTyped(options, input) ==> IsSubseq(r, options)
  {
    var kept := Keep(options, OptionTest(input));
    forall x | x in options && OptionMatches(input, x) ensures x in kept {
      assert multiset(kept)[x] == multiset(options)[x];
    }
    if OffersTyped(options, input) then
      IncludesItself(Lower(input));
      assert (kept + [input])[..|kept|] == kept;
      kept + [input]
    else
      kept
  }

  /** An empty typed text keeps every option, in order, and adds nothing. */
  lemma EmptyInputKeepsOptions(options: seq<string>)
    ensures FilterOptions(options, "") == options
  {
    forall i | 0 <= i < |options| ensures OptionTest("")(options[i]) {
      IncludesEmpty(Lower(options[i]));
    }
    KeepAll(options, OptionTest(""));
  }

  /** `FilterOptions` is a `Keep` over the options, followed by the typed
      text when it is offered. */
  lemma FilterOptionsIsKeep(options: seq<string>, input: string)
    ensures FilterOptions(options, input)
         == Keep(options, OptionTest(input)) + (if OffersTyped(options, input) then [input] else [])
  {
  }

  /** Typing an option exactly never duplicates it, and typing a new name
      adds it exactly once. */
  lemma TypedOfferedOnce(options: seq<string>, input: string)
    requires input != ""
    ensures input in options ==> multiset(FilterOptions(options, input))[input] <= multiset(options)[input]
    ensures input !in options ==> multiset(FilterOptions(options, input))[input] == 1
  {
    var kept := Keep(options, OptionTest(input));
    FilterOptionsIsKeep(options, input);
    if input !in options {
      assert multiset(kept)[input] == 0;
    }
  }

  // ---------------------------------------------------- the country list

  /** `['All Countries', ...availableCountries].sort(localeCompare)`; the
      locale order is a parameter. */
  function SortedCountries(available: seq<string>, localeCmp: (string, string) -> int): (r: seq<string>)
    ensures |r| == |available| + 1
    ensures AllCountries in r
    ensures multiset(r) == multiset([AllCountries] + available)
  {
    var r := Sort([AllCountries] + available, localeCmp);
    assert AllCountries in multiset(r);
    r
  }

  /** With a comparator that is a total preorder the list is in its order. */
  lemma SortedCountriesOrdered(available: seq<string>, localeCmp: (string, string) -> int)
    requires IsTotalPreorder(localeCmp)
    ensures Sorted(SortedCountries(available, localeCmp), localeCmp)
  {
    SortSorted([AllCountries] + available, localeCmp);
  }

  // ---------------------------------------------------------- the form

  /** The form's own state: the selected country and the two picked dates
      (the pair itself is unset until a date is first picked). */
  datatype Form = Form(selected: Option<string>, dates: Option<(Option<Date>, Option<Date>)>)

  const EmptyForm := Form(None, None)

  /** The start picker's `onChange`: keep the end date if there is one. */
  function PickStart(f: Form, d: Option<Date>): (f': Form)
    ensures f'.selected == f.selected
    ensures f'.dates.Some? && f'.dates.value.0 == d
    ensures f'.dates.value.1 == (if f.dates.Some? then f.dates.value.1 else None)
  {
    f.(dates := Some((d, if f.dates.Some? then f.dates.value.1 else None)))
  }

  /** The end picker's `onChange`: keep the start date if there is one. */
  function PickEnd(f: Form, d: Option<Date>): (f': Form)
    ensures f'.selected == f.selected
    ensures f'.dates.Some? && f'.dates.value.1 == d
    ensures f'.dates.value.0 == (if f.dates.Some? then f.dates.value.0 else None)
  {
    f.(dates := Some((if f.dates.Some? then f.dates.value.0 else None, d)))
  }

  /** The country selector's `onChange`: record the choice (or none) and
      keep the picked dates. */
  function SelectCountry(f: Form, c: Option<string>): (f': Form)
    ensures f'.selected == c && f'.dates == f.dates
  {
    f.(selected := c)
  }

  /** The country `Apply Filters` passes on: the selection, or `''`. */
  function ApplyCountry(f: Form): (c: string)
    ensures f.selected.None? ==> c == ""
    ensures f.selected.Some? ==> c == f.selected.value
  {
    if f.selected.Some? then f.selected.value else ""
  }

  /** The range `Apply Filters` passes on: each picked date, or nothing. */
  function ApplyRange(f: Form): (r: DateRange)
    ensures f.dates.None? ==> r == NoRange
    ensures f.dates.Some? ==> r.start == f.dates.value.0 && r.end == f.dates.value.1
  {
    if f.dates.Some? then DateRange(f.dates.value.0, f.dates.value.1) else NoRange
  }

  /** The two pickers fill in the two ends independently. */
  lemma PickersFillRange(f: Form, s: Option<Date>, e: Option<Date>)
    ensures ApplyRange(PickEnd(PickStart(f, s), e)) == DateRange(s, e)
    ensures ApplyRange(PickStart(PickEnd(f, e), s)) == DateRange(s, e)
    ensures ApplyRange(PickStart(EmptyForm, s)) == DateRange(s, None)
  {
  }

  /** `Apply Filters`. */
  function ClickApply(s: Session, f: Form, clean: string -> string): (s': Session)
    ensures s'.selected == Some(if f.selected.Some? then f.selected.value else "")
    ensures s'.range == (if f.dates.Some? then DateRange(f.dates.value.0, f.dates.value.1) else NoRange)
    ensures s'.error.Some? <==> f.dates.Some? && (f.dates.value.0.Some? != f.dates.value.1.Some?)
  {
    ApplyFilter(s, ApplyCountry(f), ApplyRange(f), clean)
  }

  /** `Clear Filters`: the form is emptied and the application clears its filters. */
  function ClickClear(s: Session, f: Form): (r: (Session, Form))
    ensures r.1 == EmptyForm
    ensures r.0 == ClearFilters(s)
  {
    (ClearFilters(s), EmptyForm)
  }

  /** Applying an empty form shows the same rows and page as clearing; only
      the recorded selection differs (`''` instead of none). */
  lemma ApplyEmptyIsClear(s: Session, clean: string -> string)
    ensures ClickApply(s, EmptyForm, clean).filtered == ClearFilters(s).filtered
    ensures ClickApply(s, EmptyForm, clean).page == ClearFilters(s).page
    ensures ClickApply(s, EmptyForm, clean).selected == Some("")
  {
    NoFilterKeepsAll(s.data, clean);
  }

  /** Picking only a start date and applying reports the missing end and
      leaves the rows on display alone. */
  lemma StartOnlyIsRejected(s: Session, f: Form, d: Date, clean: string -> string)
    requires f.dates.None? || f.dates.value.1.None?
    ensures var s' := ClickApply(s, PickStart(f, Some(d)), clean);
      s'.error == Some(MissingEnd) && s'.filtered == s.filtered && s'.page == s.page
  {
  }
}

=== FILE: filtering.dfy ===
/** `handleFilter`: validation of the date range, then the country filter and
    the date filter over the normalised records. */
module Filtering {
  import opened Wrappers
  import opened Strings
  import opened Seqs
  import opened Dates
  import opened Records

  /** The `[start, end]` pair of the date picker; either end may be unset. */
  datatype DateRange = DateRange(start: Option<Date>, end: Option<Date>)

  const NoRange := DateRange(None, None)

  /** The selector entry that stands for no country filter. */
  const AllCountries := "All Countries"

  const MissingEnd := "Please select end date"
  const MissingStart := "Please select start date"

  /** The validation at the head of `handleFilter`: a range with exactly one
      end set is rejected with a message naming the missing end. */
  function RangeError(range: DateRange): (e: Option<string>)
    ensures e == Some(MissingEnd) <==> range.start.Some? && range.end.None?
    ensures e == Some(MissingStart) <==> range.start.None? && range.end.Some?
    ensures e.None? <==> range.start.Some? == range.end.Some?
  {
    if range.start.Some? && range.end.None? then Some(MissingEnd)
    else if range.start.None? && range.end.Some? then Some(MissingStart)
    else None
  }

  /** The empty selection and "All Countries" switch the country filter off. */
  predicate SelectsAll(country: string)
  {
    country == "" || country == AllCountries
  }

  /** Case-insensitive substring match of the selection against the cleaned
      country name. */
  predicate NameMatches(clean: string -> string, country: string, r: Record)
  {
    Includes(Lower(clean(r.country)), Lower(country))
  }

  predicate OnOrAfterStart(s: Date, r: Record) { OnOrBefore(s, r.date) }
  predicate OnOrBeforeEnd(e: Date, r: Record) { OnOrBefore(r.date, e) }

  /** The record lies within every end of the range that is set, both ends
      inclusive. */
  predicate InRange(range: DateRange, r: Record)
  {
    && (range.start.Some? ==> OnOrBefore(range.start.value, r.date))
    && (range.end.Some? ==> OnOrBefore(r.date, range.end.value))
  }

  /** Reference definition: the record passes the country filter (if any) and
      lies within the range. */
  predicate Matches(clean: string -> string, country: string, range: DateRange, r: Record)
  {
    (SelectsAll(country) || NameMatches(clean, country, r)) && InRange(range, r)
  }

  /** The country filter. */
  function ByCountry(data: seq<Record>, clean: string -> string, country: string): (out: seq<Record>)
    ensures IsSubseq(out, data)
    ensures forall x ::
              multiset(out)[x] == if SelectsAll(country) || NameMatches(clean, country, x) then multiset(data)[x] else 0
  {
    if SelectsAll(country) then
      SubseqRefl(data);
      data
    else
      Keep(data, NameTest(clean, country))
  }

  /** The date filter, with its four branches on which ends are set. */
  function ByDate(data: seq<Record>, range: DateRange): (out: seq<Record>)
    ensures IsSubseq(out, data)
    ensures forall x :: multiset(out)[x] == if InRange(range, x) then multiset(data)[x] else 0
  {
    match range
    case DateRange(Some(s), Some(e)) => Keep(data, r => OnOrAfterStart(s, r) && OnOrBeforeEnd(e, r))
    case DateRange(Some(s), None) => Keep(data, r => OnOrAfterStart(s, r))
    case DateRange(None, Some(e)) => Keep(data, r => OnOrBeforeEnd(e, r))
    case DateRange(None, None) =>
      SubseqRefl(data);
      data
  }

  /** The records `handleFilter` hands to aggregation: those of `data` that
      match, in their original order and with their multiplicities. */
  function FilterRecords(data: seq<Record>, clean: string -> string, country: string, range: DateRange)
    : (out: seq<Record>)
    ensures IsSubseq(out, data)
    ensures forall i :: 0 <= i < |out| ==> Matches(clean, country, range, out[i])
    ensures forall x ::
              multiset(out)[x] == if Matches(clean, country, range, x) then multiset(data)[x] else 0
  {
    var c := ByCountry(data, clean, country);
    var out := ByDate(c, range);
    SubseqTrans(out, c, data);
    assert forall i :: 0 <= i < |out| ==> out[i] in multiset(out);
    out
  }

  /** The reference predicates as filter callbacks. */
  function InRangeTest(range: DateRange): Record -> bool
  {
    r => InRange(range, r)
  }

  function NameTest(clean: string -> string, country: string): Record -> bool
  {
    r => NameMatches(clean, country, r)
  }

  function MatchTest(clean: string -> string, country: string, range: DateRange): Record -> bool
  {
    r => Matches(clean, country, range, r)
  }

  /** The date filter is a single `filter` by `InRange`. */
  lemma ByDateIsKeep(data: seq<Record>, range: DateRange)
    ensures ByDate(data, range) == Keep(data, InRangeTest(range))
  {
    match range
    case DateRange(Some(s), Some(e)) =>
      KeepExt(data, r => OnOrAfterStart(s, r) && OnOrBeforeEnd(e, r), InRangeTest(range));
    case DateRange(Some(s), None) =>
      KeepExt(data, r => OnOrAfterStart(s, r), InRangeTest(range));
    case DateRange(None, Some(e)) =>
      KeepExt(data, r => OnOrBeforeEnd(e, r), InRangeTest(range));
    case DateRange(None, None) =>
      KeepAll(data, InRangeTest(range));
  }

  lemma FilterUnfold(data: seq<Record>, clean: string -> string, country: string, range: DateRange)
    ensures FilterRecords(data, clean, country, range) == ByDate(ByCountry(data, clean, country), range)
  {
  }

  lemma FilterAllCountries(data: seq<Record>, clean: string -> string, country: string, range: DateRange)
    requires SelectsAll(country)
    ensures Keep(data, InRangeTest(range)) == Keep(data, MatchTest(clean, country, range))
  {
    KeepExt(data, InRangeTest(range), MatchTest(clean, country, range));
  }

  lemma FilterOneCountry(data: seq<Record>, clean: string -> string, country: string, range: DateRange)
    requires !SelectsAll(country)
    ensures Keep(Keep(data, NameTest(clean, country)), InRangeTest(range)) == Keep(data, MatchTest(clean, country, range))
  {
    KeepKeep(data, NameTest(clean, country), InRangeTest(range));
    var both := Both(NameTest(clean, country), InRangeTest(range));
    forall r ensures both(r) == MatchTest(clean, country, range)(r) {
      assert both(r) == (NameTest(clean, country)(r) && InRangeTest(range)(r));
    }
    KeepExt(data, both, MatchTest(clean, country, range));
  }

  /** The whole filter is a single `filter` by the reference predicate. */
  lemma FilterIsKeep(data: seq<Record>, clean: string -> string, country: string, range: DateRange)
    ensures FilterRecords(data, clean, country, range) == Keep(data, MatchTest(clean, country, range))
  {
    var c := ByCountry(data, clean, country);
    FilterUnfold(data, clean, country, range);
    ByDateIsKeep(c, range);
    if SelectsAll(country) {
      FilterAllCountries(data, clean, country, range);
    } else {
      FilterOneCountry(data, clean, country, range);
    }
  }

  /** With no country and no dates every record is kept. */
  lemma NoFilterKeepsAll(data: seq<Record>, clean: string -> string)
    ensures FilterRecords(data, clean, "", NoRange) == data
    ensures FilterRecords(data, clean, AllCountries, NoRange) == data
  {
  }

  /** The range is inclusive: a matching record dated on either end is kept. */
  lemma BoundsInclusive(data: seq<Record>, clean: string -> string, country: string, s: Date, e: Date, r: Record)
    requires r in data && OnOrBefore(s, e)
    requires SelectsAll(country) || NameMatches(clean, country, r)
    requires r.date == s || r.date == e
    ensures r in FilterRecords(data, clean, country, DateRange(Some(s), Some(e)))
  {
    OnOrBeforeIsTotalOrder(s, e, s);
    var out := FilterRecords(data, clean, country, DateRange(Some(s), Some(e)));
    assert multiset(out)[r] == multiset(data)[r];
  }

  /** The country filter is a case-insensitive substring match: "franc"
      selects France. */
  lemma SubstringSelection()
    ensures NameMatches(x => x, "franc", Record(Date(2020, 3, 1), 1, 0, "France", 100, None, None))
    ensures !NameMatches(x => x, "franc", Record(Date(2020, 3, 1), 1, 0, "Spain", 100, None, None))
  {
    assert Lower("France") == "france";
    assert Lower("franc") == "franc";
    assert "franc" <= "france"[0..];
    assert Lower("Spain") == "spain";
    forall i | 0 <= i <= 5
      ensures !("franc" <= "spain"[i..])
    {
      assert i < 5 ==> "spain"[i..][0] != 'f';
    }
  }
}

=== FILE: records.dfy ===
/** The daily per-country record, as fetched and as normalised at load time. */
module Records {
  import opened Wrappers
  import opened Dates

  /** One country-day observation as the data source delivers it; an absent
      population is represented as 0. */
  datatype RawRecord = RawRecord(
    dateRep: string,
    cases: int,
    deaths: int,
    country: string,
    population: int)

  /** A record after load: the date parsed, the per-1000 rates attached. */
  datatype Record = Record(
    date: Date,
    cases: int,
    deaths: int,
    country: string,
    population: int,
    casesPer1000: Option<real>,
    deathsPer1000: Option<real>)

  /** `(count / population) * 1000` without a guard: with a zero population the
      double result is NaN or an infinity, which is `None` here. */
  function UnguardedRate(count: int, population: int): (r: Option<real>)
    ensures r.None? <==> population == 0
    ensures r.Some? ==> r.value * population as real == count as real * 1000.0
  {
    if population == 0 then None
    else Some(count as real / population as real * 1000.0)
  }

  /** `rec` is the normalised form of `raw`: every field carried over unchanged,
      the date read from `dateRep`, and the rates computed against the population. */
  ghost predicate Normalises(raw: RawRecord, rec: Record)
  {
    && ParseDateRep(raw.dateRep) == Some(rec.date)
    && rec.cases == raw.cases
    && rec.deaths == raw.deaths
    && rec.country == raw.country
    && rec.population == raw.population
    && rec.casesPer1000 == UnguardedRate(raw.cases, raw.population)
    && rec.deathsPer1000 == UnguardedRate(raw.deaths, raw.population)
  }

  /** The message `toISOString` throws on an invalid date. */
  const InvalidDate := "Invalid time value"

  /** Normalises one record; an unreadable date fails. */
  function NormaliseRecord(raw: RawRecord): (r: Result<Record>)
    ensures r.Success? <==> ParseDateRep(raw.dateRep).Some?
    ensures r.Success? ==> Normalises(raw, r.value)
  {
    match ParseDateRep(raw.dateRep)
    case None => Failure(InvalidDate)
    case Some(d) =>
      Success(Record(d, raw.cases, raw.deaths, raw.country, raw.population,
                     UnguardedRate(raw.cases, raw.population),
                     UnguardedRate(raw.deaths, raw.population)))
  }

  /** `covidData.map(...)` at load: one record out per record in, in order. The
      first unreadable date aborts the whole load. */
  function Normalise(raw: seq<RawRecord>): (r: Result<seq<Record>>)
    ensures r.Success? <==> forall i :: 0 <= i < |raw| ==> ParseDateRep(raw[i].dateRep).Some?
    ensures r.Success? ==> |r.value| == |raw|
    ensures r.Success? ==> forall i :: 0 <= i < |raw| ==> Normalises(raw[i], r.value[i])
    ensures r.Failure? ==> r.error == InvalidDate
    decreases |raw|
  {
    if |raw| == 0 then Success([])
    else
      match NormaliseRecord(raw[0])
      case Failure(e) => Failure(e)
      case Success(rec) =>
        match Normalise(raw[1..])
        case Failure(e) =>
          assert forall i :: 1 <= i < |raw| ==> raw[i] == raw[1..][i - 1];
          Failure(e)
        case Success(rest) =>
          assert forall i :: 1 <= i < |raw| ==> raw[i] == raw[1..][i - 1];
          Success([rec] + rest)
  }
}

=== FILE: seqs.dfy ===
/** Sequence primitives behind `Array.prototype.filter`, `flatMap` and
    `Array.from(new Set(xs))`. */
module Seqs {

  /** `a` is `b` with some elements dropped, the rest in their original order. */
  ghost predicate IsSubseq<T>(a: seq<T>, b: seq<T>)
    decreases |b|
  {
    if |a| == 0 then true
    else if |b| == 0 then false
    else (a[0] == b[0] && IsSubseq(a[1..], b[1..])) || IsSubseq(a, b[1..])
  }

  lemma {:induction false} SubseqRefl<T>(a: seq<T>)
    ensures IsSubseq(a, a)
    decreases |a|
  {
    if |a| > 0 {
      SubseqRefl(a[1..]);
    }
  }

  lemma {:induction false} SubseqTrans<T>(a: seq<T>, b: seq<T>, c: seq<T>)
    requires IsSubseq(a, b) && IsSubseq(b, c)
    ensures IsSubseq(a, c)
    decreases |c|
  {
    if |a| > 0 && |c| > 0 {
      if IsSubseq(b, c[1..]) {
        SubseqTrans(a, b, c[1..]);
      } else if a[0] == b[0] && IsSubseq(a[1..], b[1..]) {
        SubseqTrans(a[1..], b[1..], c[1..]);
      } else {
        SubseqTrans(a, b[1..], c[1..]);
      }
    }
  }

  /** `s.filter(p)`: the elements satisfying `p`, in order, each as often as in `s`. */
  function Keep<T(!new)>(s: seq<T>, p: T -> bool): (r: seq<T>)
    ensures |r| <= |s|
    ensures IsSubseq(r, s)
    ensures forall i :: 0 <= i < |r| ==> p(r[i])
    ensures forall x :: multiset(r)[x] == if p(x) then multiset(s)[x] else 0
    decreases |s|
  {
    if |s| == 0 then []
    else
      var rest := Keep(s[1..], p);
      assert s == [s[0]] + s[1..];
      if p(s[0]) then [s[0]] + rest else rest
  }

  /** Filtering distributes over concatenation. */
  lemma {:induction false} KeepAppend<T(!new)>(a: seq<T>, b: seq<T>, p: T -> bool)
    ensures Keep(a + b, p) == Keep(a, p) + Keep(b, p)
    decreases |a|
  {
    if |a| == 0 {
      assert a + b == b;
    } else {
      assert (a + b)[1..] == a[1..] + b;
      KeepAppend(a[1..], b, p);
    }
  }

  /** A filter whose predicate holds everywhere keeps everything. */
  lemma {:induction false} KeepAll<T(!new)>(s: seq<T>, p: T -> bool)
    requires forall i :: 0 <= i < |s| ==> p(s[i])
    ensures Keep(s, p) == s
    decreases |s|
  {
    if |s| > 0 {
      KeepAll(s[1..], p);
    }
  }

  /** The conjunction of two tests. */
  function Both<T>(p: T -> bool, q: T -> bool): T -> bool
  {
    x => p(x) && q(x)
  }

  /** Filtering twice is filtering once by the conjunction. */
  lemma {:induction false} KeepKeep<T(!new)>(s: seq<T>, p: T -> bool, q: T -> bool)
    ensures Keep(Keep(s, p), q) == Keep(s, Both(p, q))
    decreases |s|
  {
    if |s| > 0 {
      KeepKeep(s[1..], p, q);
    }
  }

  /** Filters by predicates that agree everywhere keep the same elements. */
  lemma {:induction false} KeepExt<T(!new)>(s: seq<T>, p: T -> bool, q: T -> bool)
    requires forall x :: p(x) == q(x)
    ensures Keep(s, p) == Keep(s, q)
    decreases |s|
  {
    if |s| > 0 {
      KeepExt(s[1..], p, q);
    }
  }

  /** No element occurs twice. */
  predicate NoDup<T(==)>(s: seq<T>)
  {
    forall i, j :: 0 <= i < j < |s| ==> s[i] != s[j]
  }

  /** The position of the first occurrence of `x` in `s`. */
  function FirstIndex<T(==)>(s: seq<T>, x: T): (i: nat)
    requires x in s
    ensures i < |s| && s[i] == x && x !in s[..i]
  {
    if s[0] == x then 0
    else
      var j := FirstIndex(s[1..], x);
      assert s[..j + 1] == [s[0]] + s[1..][..j];
      j + 1
  }

  /** Any occurrence of `x` with no earlier one is the first occurrence. */
  lemma FirstIndexUnique<T>(s: seq<T>, x: T, i: nat)
    requires i < |s| && s[i] == x && x !in s[..i]
    ensures FirstIndex(s, x) == i
  {
    var m := FirstIndex(s, x);
    forall t | 0 <= t < m
      ensures s[t] != x
    {
      assert s[..m][t] == s[t];
    }
    forall t | 0 <= t < i
      ensures s[t] != x
    {
      assert s[..i][t] == s[t];
    }
  }

  /** `Array.from(new Set(s))`: each element once, in order of first appearance. */
  function Distinct<T(==,!new)>(s: seq<T>): (d: seq<T>)
    ensures forall x :: x in d <==> x in s
    ensures NoDup(d)
    decreases |s|
  {
    if |s| == 0 then []
    else
      var init := s[..|s| - 1];
      var d0 := Distinct(init);
      var x := s[|s| - 1];
      assert s == init + [x];
      if x in d0 then d0 else d0 + [x]
  }

  /** `Distinct` lists the elements in the order of their first appearance in `s`. */
  lemma {:induction false} DistinctOrder<T(!new)>(s: seq<T>)
    ensures forall i, j :: 0 <= i < j < |Distinct(s)| ==>
      FirstIndex(s, Distinct(s)[i]) < FirstIndex(s, Distinct(s)[j])
    decreases |s|
  {
    if |s| > 0 {
      var init := s[..|s| - 1];
      var x := s[|s| - 1];
      var d0 := Distinct(init);
      var d := Distinct(s);
      DistinctOrder(init);
      assert s == init + [x];
      forall y | y in init
        ensures FirstIndex(s, y) == FirstIndex(init, y)
      {
        var k := FirstIndex(init, y);
        assert s[..k] == init[..k];
        FirstIndexUnique(s, y, k);
      }
      if x !in d0 {
        assert x !in init;
        forall i | 0 <= i < |d0|
          ensures FirstIndex(s, d[i]) < FirstIndex(s, x)
        {
          assert s[..|init|] == init;
          FirstIndexUnique(s, x, |init|);
        }
      }
    }
  }

  /** Appending an element already present leaves `Distinct` alone; a new one goes last. */
  lemma DistinctSnoc<T(!new)>(s: seq<T>, x: T)
    ensures Distinct(s + [x]) == if x in s then Distinct(s) else Distinct(s) + [x]
  {
    assert (s + [x])[..|s + [x]| - 1] == s;
  }

  /** A permutation of a duplicate-free sequence is duplicate-free. */
  lemma NoDupPermutation<T>(a: seq<T>, b: seq<T>)
    requires multiset(a) == multiset(b) && NoDup(a)
    ensures NoDup(b)
  {
    forall x | x in a
      ensures multiset(a)[x] == 1
    {
      NoDupCount(a, x);
    }
    forall i, j | 0 <= i < j < |b|
      ensures b[i] != b[j]
    {
      assert b[i] in multiset(a);
      var whole := b[..i] + [b[i]] + b[i + 1..j] + [b[j]] + b[j + 1..];
      assert b == whole;
      assert multiset(whole)[b[i]] >= 1 + multiset([b[j]])[b[i]];
    }
  }

  lemma {:induction false} NoDupCount<T>(a: seq<T>, x: T)
    requires NoDup(a) && x in a
    ensures multiset(a)[x] == 1
    decreases |a|
  {
    assert a == [a[0]] + a[1..];
    if a[0] == x {
      assert x !in a[1..];
    } else {
      NoDupCount(a[1..], x);
    }
  }
}

=== FILE: sessions.dfy ===
/** The application as a two-phase state machine: `Load` normalises the
    fetched records and builds the first view; afterwards the user's commands
    update the view while the records stay as loaded. */
module Sessions {
  import opened Wrappers
  import opened Seqs
  import opened Dates
  import opened Records
  import opened Totals
  import opened Aggregation
  import opened Filtering
  import opened View

  datatype Mode = TableView | ChartView

  /** The state of `App`: the loaded records (`covidData`), the country list
      offered to the selector, the aggregated rows on display
      (`filteredData`), and the view settings. */
  datatype Session = Session(
    data: seq<Record>,
    countries: seq<string>,
    filtered: seq<Row>,
    page: PageNumber,
    sort: SortState,
    selected: Option<string>,
    range: DateRange,
    error: Option<string>,
    mode: Mode)

  /** `processData(subset)`: the lifetime totals are built over `original`
      (the argument itself on the first call, `covidData` afterwards), then
      `subset` is aggregated against them. */
  function ProcessData(original: seq<Record>, subset: seq<Record>): (rows: seq<Row>)
    ensures RowCountries(rows) == CountriesByFirstAppearance(subset)
  {
    AggregateCountries(subset, LifetimeTotals(original));
    Aggregate(subset, LifetimeTotals(original))
  }

  /** The country list: each raw country once, in order of first appearance,
      passed through the display clean-up. */
  function AvailableCountries(data: seq<Record>, clean: string -> string): (cs: seq<string>)
    ensures |cs| == |CountriesByFirstAppearance(data)|
    ensures forall i :: 0 <= i < |cs| ==> cs[i] == clean(CountriesByFirstAppearance(data)[i])
    ensures forall r :: r in data ==> clean(r.country) in cs
  {
    var d := CountriesByFirstAppearance(data);
    assert forall r :: r in data ==> r.country in CountryList(data);
    var cs := seq(|d|, i requires 0 <= i < |d| => clean(d[i]));
    forall c | c in d ensures clean(c) in cs {
      var i :| 0 <= i < |d| && d[i] == c;
      assert cs[i] == clean(c);
    }
    cs
  }

  /** With a clean-up that never merges two names, every country is offered
      once, exactly the countries of the records are offered (cleaned), and
      they come in the order in which the records first name them. */
  lemma AvailableCountriesOnce(data: seq<Record>, clean: string -> string, i: nat, j: nat)
    requires forall a, b :: clean(a) == clean(b) ==> a == b
    requires i < j < |AvailableCountries(data, clean)|
    ensures var cs := AvailableCountries(data, clean);
      && cs[i] != cs[j]
      && (forall c :: c in cs <==> exists r :: r in data && c == clean(r.country))
      && FirstIndex(CountryList(data), CountriesByFirstAppearance(data)[i])
           < FirstIndex(CountryList(data), CountriesByFirstAppearance(data)[j])
  {
    var cs := AvailableCountries(data, clean);
    var d := CountriesByFirstAppearance(data);
    DistinctOrder(CountryList(data));
    forall c | c in cs ensures exists r :: r in data && c == clean(r.country) {
      var k :| 0 <= k < |cs| && cs[k] == c;
      assert d[k] in CountryList(data);
      var m :| 0 <= m < |data| && CountryList(data)[m] == d[k];
      assert data[m] in data;
    }
  }

  /** The effect of the loading hook: normalise, aggregate everything (on
      this first call the totals come from the normalised records
      themselves), and offer the cleaned countries. An unreadable date aborts
      the load. */
  function Load(raw: seq<RawRecord>, clean: string -> string): (r: Result<Session>)
    ensures r.Success? <==> Normalise(raw).Success?
    ensures r.Success? ==> r.value.data == Normalise(raw).value
    ensures r.Success? ==> r.value.filtered == Aggregate(r.value.data, LifetimeTotals(r.value.data))
    ensures r.Success? ==> r.value.page == 1 && r.value.sort == InitialSort && r.value.error.None?
    ensures r.Success? ==> r.value.mode == TableView && r.value.selected.None? && r.value.range == NoRange
    ensures r.Success? ==> |r.value.countries| == |CountriesByFirstAppearance(r.value.data)|
    ensures r.Success? ==> forall i :: 0 <= i < |r.value.countries| ==>
              r.value.countries[i] == clean(CountriesByFirstAppearance(r.value.data)[i])
    ensures r.Failure? ==> r.error == InvalidDate
  {
    match Normalise(raw)
    case Failure(e) => Failure(e)
    case Success(data) =>
      Success(Session(data, AvailableCountries(data, clean), ProcessData(data, data),
                      1, InitialSort, None, NoRange, None, TableView))
  }

  // ----------------------------------------------------------- commands

  /** `handleFilter(country, range)`. The selection and range are recorded
      first; a one-sided range sets the message and stops there; otherwise
      the message is cleared, the filtered records are re-aggregated and the
      first page is shown. */
  function ApplyFilter(s: Session, country: string, range: DateRange, clean: string -> string): (s': Session)
    ensures s'.data == s.data && s'.countries == s.countries && s'.sort == s.sort && s'.mode == s.mode
    ensures s'.selected == Some(country) && s'.range == range
    ensures s'.error == RangeError(range)
    ensures s'.error.Some? ==> s'.filtered == s.filtered && s'.page == s.page
    ensures s'.error.None? ==>
              s'.page == 1 && s'.filtered == ProcessData(s.data, FilterRecords(s.data, clean, country, range))
  {
    var s1 := s.(selected := Some(country), range := range);
    match RangeError(range)
    case Some(msg) => s1.(error := Some(msg))
    case None =>
      var filtered := FilterRecords(s.data, clean, country, range);
      s1.(error := None, filtered := ProcessData(s.data, filtered), page := 1)
  }

  /** `handleClearFilters`: forget the selection and the range, aggregate
      everything and go to the first page. The error message is left as it is. */
  function ClearFilters(s: Session): (s': Session)
    ensures s'.data == s.data && s'.countries == s.countries && s'.sort == s.sort && s'.mode == s.mode
    ensures s'.selected.None? && s'.range == NoRange && s'.page == 1
    ensures s'.error == s.error
    ensures s'.filtered == ProcessData(s.data, s.data)
  {
    s.(selected := None, range := NoRange, filtered := ProcessData(s.data, s.data), page := 1)
  }

  datatype Command =
    | ApplyFilterCmd(country: string, range: DateRange)
    | ClearFiltersCmd
    | ChangePage(page: PageNumber)
    | ChangeSort(key: SortKey)
    | ToggleMode

  /** One user event. Paging, sorting and switching the view each change
      their own setting and nothing else; only the filter commands change the
      rows on display. */
  function Step(s: Session, cmd: Command, clean: string -> string): (s': Session)
    ensures s'.data == s.data && s'.countries == s.countries
    ensures cmd.ApplyFilterCmd? ==> s' == ApplyFilter(s, cmd.country, cmd.range, clean)
    ensures cmd.ClearFiltersCmd? ==> s' == ClearFilters(s)
    ensures cmd.ChangePage? ==> s' == s.(page := cmd.page)
    ensures cmd.ChangeSort? ==> s' == s.(sort := ToggleSort(s.sort, cmd.key))
    ensures cmd.ChangeSort? ==> s'.sort.key == cmd.key && (s'.sort.dir == Desc <==> s.sort == SortState(cmd.key, Asc))
    ensures cmd.ToggleMode? ==> s'.mode != s.mode && s' == s.(mode := s'.mode)
    ensures !cmd.ApplyFilterCmd? && !cmd.ClearFiltersCmd? ==> s'.filtered == s.filtered
  {
    match cmd
    case ApplyFilterCmd(country, range) => ApplyFilter(s, country, range, clean)
    case ClearFiltersCmd => ClearFilters(s)
    case ChangePage(p) => s.(page := p)
    case ChangeSort(key) => s.(sort := ToggleSort(s.sort, key))
    case ToggleMode => s.(mode := if s.mode == TableView then ChartView else TableView)
  }

  /** A sequence of user events, in order. */
  function Run(s: Session, cmds: seq<Command>, clean: string -> string): (s': Session)
    ensures s'.data == s.data && s'.countries == s.countries
    ensures (forall k :: 0 <= k < |cmds| ==> cmds[k].ChangePage? || cmds[k].ChangeSort? || cmds[k].ToggleMode?)
              ==> s'.filtered == s.filtered
    decreases |cmds|
  {
    if |cmds| == 0 then s else Run(Step(s, cmds[0], clean), cmds[1..], clean)
  }

  // ---------------------------------------------------- what is displayed

  /** The rows of the table: the current page of the sorted rows. */
  function Displayed(s: Session): (rows: seq<Row>)
    ensures |rows| <= RowsPerPage
    ensures forall r :: r in rows ==> r in s.filtered
    ensures (s.page - 1) * RowsPerPage >= |s.filtered| ==> rows == []
    ensures (s.page - 1) * RowsPerPage < |s.filtered| ==>
              |rows| == Min(RowsPerPage, |s.filtered| - (s.page - 1) * RowsPerPage)
    ensures forall i :: 0 <= i < |rows| ==>
              rows[i] == SortRows(s.filtered, s.sort)[(s.page - 1) * RowsPerPage + i]
  {
    var sorted := SortRows(s.filtered, s.sort);
    var p := Page(sorted, s.page);
    assert forall r :: r in p ==> r in multiset(sorted);
    p
  }

  /** The table lists its rows in the order of the chosen column and
      direction, read off the rows' fields. */
  lemma DisplayedInOrder(s: Session, i: nat, j: nat)
    requires i < j < |Displayed(s)|
    ensures MayPrecede(Displayed(s)[i], Displayed(s)[j], s.sort)
  {
    var base := (s.page - 1) * RowsPerPage;
    var rows, sorted := Displayed(s), SortRows(s.filtered, s.sort);
    assert rows[i] == sorted[base + i] && rows[j] == sorted[base + j];
    SortedByColumn(s.filtered, s.sort, base + i, base + j);
  }

  // ----------------------------------------------------------- invariant

  /** The rows on display name each country once, and every row carries the
      lifetime totals of its country over all loaded records, whatever subset
      was aggregated. */
  ghost predicate Valid(s: Session)
  {
    && (forall i, j :: 0 <= i < j < |s.filtered| ==> s.filtered[i].country != s.filtered[j].country)
    && (forall i :: 0 <= i < |s.filtered| ==>
          && s.filtered[i].country in CountriesIn(s.data)
          && s.filtered[i].totalCases == Some(SumOf(s.data, s.filtered[i].country, Metric.Cases))
          && s.filtered[i].totalDeaths == Some(SumOf(s.data, s.filtered[i].country, Metric.Deaths)))
  }

  /** The row of a country in the aggregated subset, when the subset comes
      from the full data. */
  lemma ProcessedRowAt(data: seq<Record>, subset: seq<Record>, i: nat)
    requires forall r :: r in subset ==> r in data
    requires i < |ProcessData(data, subset)|
    ensures var row := ProcessData(data, subset)[i];
      && row.country in CountriesIn(data)
      && row.cases == SumOf(subset, row.country, Metric.Cases)
      && row.deaths == SumOf(subset, row.country, Metric.Deaths)
      && row.totalCases == Some(SumOf(data, row.country, Metric.Cases))
      && row.totalDeaths == Some(SumOf(data, row.country, Metric.Deaths))
  {
    var t := LifetimeTotals(data);
    var cs := CountriesByFirstAppearance(subset);
    AggregateIsSummaries(subset, t);
    SummariesAt(cs, subset, t, i);
    var c := cs[i];
    var row := ProcessData(data, subset)[i];
    assert row == Summary(subset, c, t);
    assert c in CountriesIn(data) by {
      var j :| 0 <= j < |subset| && CountryList(subset)[j] == c;
      assert subset[j] in data;
    }
    assert t[c] == TotalOf(data, c);
    SummaryFields(subset, c, t);
  }

  /** The rows of the aggregated subset have distinct countries. */
  lemma ProcessedCountriesDistinct(data: seq<Record>, subset: seq<Record>)
    ensures var rows := ProcessData(data, subset);
      forall i, j :: 0 <= i < j < |rows| ==> rows[i].country != rows[j].country
  {
    var t := LifetimeTotals(data);
    var cs := CountriesByFirstAppearance(subset);
    var rows := ProcessData(data, subset);
    AggregateIsSummaries(subset, t);
    forall i, j | 0 <= i < j < |rows| ensures rows[i].country != rows[j].country {
      SummariesAt(cs, subset, t, i);
      SummariesAt(cs, subset, t, j);
    }
  }

  /** Aggregating any selection of the loaded records against the lifetime
      totals gives rows with distinct countries, subset sums and lifetime totals. */
  lemma AggregateSubset(data: seq<Record>, subset: seq<Record>)
    requires forall r :: r in subset ==> r in data
    ensures var rows := ProcessData(data, subset);
      && (forall i, j :: 0 <= i < j < |rows| ==> rows[i].country != rows[j].country)
      && (forall i :: 0 <= i < |rows| ==>
            && rows[i].country in CountriesIn(data)
            && rows[i].cases == SumOf(subset, rows[i].country, Metric.Cases)
            && rows[i].deaths == SumOf(subset, rows[i].country, Metric.Deaths)
            && rows[i].totalCases == Some(SumOf(data, rows[i].country, Metric.Cases))
            && rows[i].totalDeaths == Some(SumOf(data, rows[i].country, Metric.Deaths)))
  {
    ProcessedCountriesDistinct(data, subset);
    forall i | 0 <= i < |ProcessData(data, subset)| {
      ProcessedRowAt(data, subset, i);
    }
  }

  lemma LoadValid(raw: seq<RawRecord>, clean: string -> string)
    ensures Load(raw, clean).Success? ==> Valid(Load(raw, clean).value)
  {
    if Load(raw, clean).Success? {
      AggregateSubset(Load(raw, clean).value.data, Load(raw, clean).value.data);
    }
  }

  lemma StepValid(s: Session, cmd: Command, clean: string -> string)
    requires Valid(s)
    ensures Valid(Step(s, cmd, clean))
  {
    match cmd
    case ApplyFilterCmd(country, range) =>
      var f := FilterRecords(s.data, clean, country, range);
      assert forall r :: r in f ==> r in s.data by {
        forall r | r in f ensures r in s.data {
          assert multiset(f)[r] > 0;
        }
      }
      AggregateSubset(s.data, f);
    case ClearFiltersCmd =>
      AggregateSubset(s.data, s.data);
    case _ =>
  }

  /** Every sequence of user events keeps the loaded records and the lifetime
      totals on every displayed row. */
  lemma {:induction false} RunValid(s: Session, cmds: seq<Command>, clean: string -> string)
    requires Valid(s)
    ensures Valid(Run(s, cmds, clean))
    ensures Run(s, cmds, clean).data == s.data
    decreases |cmds|
  {
    if |cmds| > 0 {
      StepValid(s, cmds[0], clean);
      RunValid(Step(s, cmds[0], clean), cmds[1..], clean);
    }
  }

  /** After a filter is applied the page is the first, and after a one-sided
      range nothing on display changes except the message. */
  lemma FilterResetsOrKeepsView(s: Session, country: string, range: DateRange, clean: string -> string)
    ensures var s' := ApplyFilter(s, country, range, clean);
      if range.start.Some? != range.end.Some? then
        s'.filtered == s.filtered && s'.page == s.page && Displayed(s') == Displayed(s) && s'.error.Some?
      else
        s'.page == 1 && s'.error.None?
  {
  }

  // ----------------------------------------------------------- scenario

  /** Two reports for one country, on the 1st and the 2nd of January 2020. */
  const ScenarioRaw := [RawRecord("01/01/2020", 10, 1, "X", 1000), RawRecord("02/01/2020", 5, 0, "X", 1000)]

  function ScenarioRecord(day: nat, cases: int, deaths: int): Record
  {
    Record(Date(2020, 1, day), cases, deaths, "X", 1000, UnguardedRate(cases, 1000), UnguardedRate(deaths, 1000))
  }

  lemma ScenarioDates()
    ensures ParseDateRep("01/01/2020") == Some(Date(2020, 1, 1))
    ensures ParseDateRep("02/01/2020") == Some(Date(2020, 1, 2))
  {
    ParseFormat(Date(2020, 1, 1));
    assert FormatDateRep(Date(2020, 1, 1)) == "01/01/2020";
    DayComesFirst();
  }

  lemma ScenarioNormaliseOne(raw: RawRecord, day: nat)
    requires raw.dateRep == "01/01/2020" || raw.dateRep == "02/01/2020"
    requires day == if raw.dateRep == "01/01/2020" then 1 else 2
    requires raw.country == "X" && raw.population == 1000
    ensures NormaliseRecord(raw) == Success(ScenarioRecord(day, raw.cases, raw.deaths))
  {
    ScenarioDates();
  }

  lemma NormaliseTwo(a: RawRecord, b: RawRecord, x: Record, y: Record)
    requires NormaliseRecord(a) == Success(x) && NormaliseRecord(b) == Success(y)
    ensures Normalise([a, b]) == Success([x, y])
  {
    var one := [b];
    assert one[1..] == [];
    assert Normalise(one[1..]) == Success([]);
    assert one[0] == b;
    assert Normalise(one) == Success([y] + []);
    assert [y] + [] == [y];
    var two := [a, b];
    assert two[1..] == one && two[0] == a;
    assert Normalise(two) == Success([x] + [y]);
    assert [x] + [y] == [x, y];
  }

  /** Loading the two reports reads both dates day-first. */
  lemma ScenarioNormalise()
    ensures Normalise(ScenarioRaw) == Success([ScenarioRecord(1, 10, 1), ScenarioRecord(2, 5, 0)])
  {
    var raw := ScenarioRaw;
    ScenarioNormaliseOne(raw[0], 1);
    ScenarioNormaliseOne(raw[1], 2);
    NormaliseTwo(raw[0], raw[1], ScenarioRecord(1, 10, 1), ScenarioRecord(2, 5, 0));
  }

  /** The lifetime totals of the scenario: 15 cases and 1 death for "X". */
  lemma ScenarioTotals()
    ensures var t := LifetimeTotals([ScenarioRecord(1, 10, 1), ScenarioRecord(2, 5, 0)]);
      "X" in t && t["X"] == Total(15, 1)
  {
    var data := [ScenarioRecord(1, 10, 1), ScenarioRecord(2, 5, 0)];
    assert data[0] in data;
    assert data[1..][1..] == [];
  }

  const ScenarioData := [ScenarioRecord(1, 10, 1), ScenarioRecord(2, 5, 0)]

  const Day2 := DateRange(Some(Date(2020, 1, 2)), Some(Date(2020, 1, 2)))

  /** A single record aggregates to a fresh row that accumulates it. */
  lemma AggregateOne(r: Record, t: Totals)
    ensures Aggregate([r], t) == [Accumulate(NewRow(r), r, t)]
  {
    assert [r][..0] == [];
    assert Upsert([], r, t) == [Accumulate(NewRow(r), r, t)];
  }

  /** Two records of one country aggregate to one row that accumulates both. */
  lemma AggregateTwoSame(r1: Record, r2: Record, t: Totals)
    requires r1.country == r2.country
    ensures Aggregate([r1, r2], t) == [Accumulate(Accumulate(NewRow(r1), r1, t), r2, t)]
  {
    assert [r1, r2][..1] == [r1];
    AggregateOne(r1, t);
    var row1 := Accumulate(NewRow(r1), r1, t);
    assert Upsert([row1], r2, t) == [Accumulate(row1, r2, t)] + [row1][1..];
  }

  lemma ScenarioAggregate()
    ensures Aggregate(ScenarioData, LifetimeTotals(ScenarioData))
         == [Row("X", 15, 1, 15.0, 1.0, 1000,
                 IsoString(Date(2020, 1, 1)) + IsoString(Date(2020, 1, 2)), Some(15), Some(1))]
  {
    var data := ScenarioData;
    var r1, r2 := data[0], data[1];
    ScenarioTotals();
    var t := LifetimeTotals(data);
    AggregateTwoSame(r1, r2, t);
    var row1 := Accumulate(NewRow(r1), r1, t);
    var row := Accumulate(row1, r2, t);
    var iso1, iso2 := IsoString(Date(2020, 1, 1)), IsoString(Date(2020, 1, 2));
    assert "" + iso1 == iso1;
    assert row.dateRep == iso1 + iso2;
    assert row.cases == 15 && row.deaths == 1 && row.population == 1000;
    assert row.totalCases == Some(15) && row.totalDeaths == Some(1);
    assert Rate(15, 1000) == 15.0 && Rate(1, 1000) == 1.0;
  }

  lemma ScenarioFilter(clean: string -> string)
    ensures FilterRecords(ScenarioData, clean, "", Day2) == [ScenarioData[1]]
  {
    var data := ScenarioData;
    var inDay2 := r => OnOrAfterStart(Date(2020, 1, 2), r) && OnOrBeforeEnd(Date(2020, 1, 2), r);
    assert data[1..] == [data[1]] && [data[1]][1..] == [];
    assert Keep(data, inDay2) == [data[1]];
  }

  /** The row the 2nd of January's report alone accumulates to. */
  lemma ScenarioRowDay2()
    ensures Accumulate(NewRow(ScenarioRecord(2, 5, 0)), ScenarioRecord(2, 5, 0), LifetimeTotals(ScenarioData))
         == Row("X", 5, 0, 5.0, 0.0, 1000, IsoString(Date(2020, 1, 2)), Some(15), Some(1))
  {
    ScenarioTotals();
    var t := LifetimeTotals(ScenarioData);
    var r2 := ScenarioRecord(2, 5, 0);
    var row := Accumulate(NewRow(r2), r2, t);
    var iso := IsoString(Date(2020, 1, 2));
    assert "" + iso == iso;
    assert row.cases == 5 && row.deaths == 0 && row.dateRep == iso;
    assert row.totalCases == Some(15) && row.totalDeaths == Some(1);
    assert Rate(5, 1000) == 5.0 && Rate(0, 1000) == 0.0;
  }

  lemma ScenarioAggregateDay2()
    ensures Aggregate([ScenarioData[1]], LifetimeTotals(ScenarioData))
         == [Row("X", 5, 0, 5.0, 0.0, 1000, IsoString(Date(2020, 1, 2)), Some(15), Some(1))]
  {
    assert ScenarioData[1] == ScenarioRecord(2, 5, 0);
    AggregateOne(ScenarioRecord(2, 5, 0), LifetimeTotals(ScenarioData));
    ScenarioRowDay2();
  }

  /** Unfiltered, the scenario gives one row with the sums, the rate per 1000
      and the lifetime totals; filtered to the 2nd of January, the row holds
      only that day's counts but still the lifetime totals. */
  lemma Scenario(clean: string -> string)
    ensures Load(ScenarioRaw, clean).Success?
    ensures var s := Load(ScenarioRaw, clean).value;
      && s.filtered == [Row("X", 15, 1, 15.0, 1.0, 1000,
                            IsoString(Date(2020, 1, 1)) + IsoString(Date(2020, 1, 2)), Some(15), Some(1))]
      && ApplyFilter(s, "", Day2, clean).filtered
           == [Row("X", 5, 0, 5.0, 0.0, 1000, IsoString(Date(2020, 1, 2)), Some(15), Some(1))]
  {
    ScenarioNormalise();
    var s := Load(ScenarioRaw, clean).value;
    assert s.data == ScenarioData;
    ScenarioAggregate();
    ScenarioFilter(clean);
    ScenarioAggregateDay2();
    assert ApplyFilter(s, "", Day2, clean).filtered == ProcessData(ScenarioData, [ScenarioData[1]]);
  }
}

=== FILE: sorting.dfy ===
/** A stable sort driven by a JavaScript-style comparator: `cmp(a, b) <= 0`
    means `a` may stay before `b`. Since ES2019 `Array.prototype.sort` is
    required to be stable, and a stable sort by a total preorder has exactly
    one possible result, this insertion sort stands for it. */
module Sorting {
  import opened Seqs

  /** `cmp` orders every pair and chains: the comparator contract of `sort`. */
  ghost predicate IsTotalPreorder<T(!new)>(cmp: (T, T) -> int)
  {
    && (forall a, b :: cmp(a, b) <= 0 || cmp(b, a) <= 0)
    && (forall a, b, c :: cmp(a, b) <= 0 && cmp(b, c) <= 0 ==> cmp(a, c) <= 0)
  }

  /** Every element may stay before every later one. */
  ghost predicate Sorted<T>(s: seq<T>, cmp: (T, T) -> int)
  {
    forall i, j :: 0 <= i < j < |s| ==> cmp(s[i], s[j]) <= 0
  }

  /** `a` and `b` compare equal: neither must move past the other. */
  ghost predicate Tied<T>(cmp: (T, T) -> int, a: T, b: T)
  {
    cmp(a, b) <= 0 && cmp(b, a) <= 0
  }

  /** The elements of `s` that compare equal to `y`, in their order in `s`. */
  ghost function Ties<T>(s: seq<T>, y: T, cmp: (T, T) -> int): seq<T>
  {
    if |s| == 0 then []
    else (if Tied(cmp, s[0], y) then [s[0]] else []) + Ties(s[1..], y, cmp)
  }

  lemma TiesCons<T>(a: T, t: seq<T>, y: T, cmp: (T, T) -> int)
    ensures Ties([a] + t, y, cmp) == (if Tied(cmp, a, y) then [a] else []) + Ties(t, y, cmp)
  {
    assert ([a] + t)[1..] == t;
  }

  /** Puts `x` in front of the first element it may precede. */
  function Insert<T>(x: T, s: seq<T>, cmp: (T, T) -> int): (r: seq<T>)
    ensures |r| == |s| + 1
    ensures multiset(r) == multiset(s) + multiset{x}
    decreases |s|
  {
    if |s| == 0 then [x]
    else if cmp(x, s[0]) <= 0 then [x] + s
    else
      assert s == [s[0]] + s[1..];
      [s[0]] + Insert(x, s[1..], cmp)
  }

  /** `[...s].sort(cmp)`. */
  function Sort<T>(s: seq<T>, cmp: (T, T) -> int): (r: seq<T>)
    ensures |r| == |s|
    ensures multiset(r) == multiset(s)
    decreases |s|
  {
    if |s| == 0 then []
    else
      assert s == [s[0]] + s[1..];
      Insert(s[0], Sort(s[1..], cmp), cmp)
  }

  /** `Insert` places `x` after a prefix of elements that must precede it. */
  lemma {:induction false} InsertShape<T>(x: T, s: seq<T>, cmp: (T, T) -> int) returns (k: nat)
    ensures k <= |s|
    ensures Insert(x, s, cmp) == s[..k] + [x] + s[k..]
    ensures forall i :: 0 <= i < k ==> cmp(x, s[i]) > 0
    decreases |s|
  {
    if |s| == 0 || cmp(x, s[0]) <= 0 {
      k := 0;
    } else {
      var k' := InsertShape(x, s[1..], cmp);
      k := k' + 1;
      assert s[..k] == [s[0]] + s[1..][..k'];
      assert s[k..] == s[1..][k'..];
    }
  }

  /** A lower bound of `x` and of every element of `t` bounds every element
      of `Insert(x, t, cmp)`. */
  lemma InsertLowerBound<T>(a: T, x: T, t: seq<T>, cmp: (T, T) -> int)
    requires cmp(a, x) <= 0
    requires forall k :: 0 <= k < |t| ==> cmp(a, t[k]) <= 0
    ensures forall k :: 0 <= k < |Insert(x, t, cmp)| ==> cmp(a, Insert(x, t, cmp)[k]) <= 0
  {
    var r := Insert(x, t, cmp);
    forall k | 0 <= k < |r| ensures cmp(a, r[k]) <= 0 {
      assert r[k] in multiset(t) + multiset{x};
      if r[k] != x {
        var m :| 0 <= m < |t| && t[m] == r[k];
      }
    }
  }

  /** Putting a lower bound of a sorted sequence in front keeps it sorted. */
  lemma SortedCons<T>(a: T, t: seq<T>, cmp: (T, T) -> int)
    requires Sorted(t, cmp)
    requires forall k :: 0 <= k < |t| ==> cmp(a, t[k]) <= 0
    ensures Sorted([a] + t, cmp)
  {
    var r := [a] + t;
    forall i, j | 0 <= i < j < |r| ensures cmp(r[i], r[j]) <= 0 {
      assert r[j] == t[j - 1];
      if i > 0 {
        assert r[i] == t[i - 1];
      }
    }
  }

  /** An element that may precede the head of a sorted sequence may precede all of it. */
  lemma HeadBound<T(!new)>(x: T, s: seq<T>, cmp: (T, T) -> int)
    requires IsTotalPreorder(cmp) && Sorted(s, cmp)
    requires |s| > 0 && cmp(x, s[0]) <= 0
    ensures forall k :: 0 <= k < |s| ==> cmp(x, s[k]) <= 0
  {
    forall k | 0 < k < |s| ensures cmp(x, s[k]) <= 0 {
      assert cmp(s[0], s[k]) <= 0;
    }
  }

  lemma {:induction false} InsertSorted<T(!new)>(x: T, s: seq<T>, cmp: (T, T) -> int)
    requires IsTotalPreorder(cmp) && Sorted(s, cmp)
    ensures Sorted(Insert(x, s, cmp), cmp)
    decreases |s|
  {
    if |s| == 0 {
    } else if cmp(x, s[0]) <= 0 {
      HeadBound(x, s, cmp);
      SortedCons(x, s, cmp);
    } else {
      var t := Insert(x, s[1..], cmp);
      InsertSorted(x, s[1..], cmp);
      assert cmp(s[0], x) <= 0;
      assert forall k :: 0 <= k < |s[1..]| ==> cmp(s[0], s[1..][k]) <= 0;
      InsertLowerBound(s[0], x, s[1..], cmp);
      SortedCons(s[0], t, cmp);
    }
  }

  /** With a total-preorder comparator the result is in order. */
  lemma {:induction false} SortSorted<T(!new)>(s: seq<T>, cmp: (T, T) -> int)
    requires IsTotalPreorder(cmp)
    ensures Sorted(Sort(s, cmp), cmp)
    decreases |s|
  {
    if |s| > 0 {
      SortSorted(s[1..], cmp);
      InsertSorted(s[0], Sort(s[1..], cmp), cmp);
    }
  }

  /** Two elements in strict order cannot both be tied with a third. */
  lemma NotBothTied<T(!new)>(a: T, b: T, y: T, cmp: (T, T) -> int)
    requires IsTotalPreorder(cmp) && cmp(a, b) > 0
    ensures !Tied(cmp, a, y) || !Tied(cmp, b, y)
  {
  }

  /** Swapping two adjacent elements that cannot both be ties keeps the ties. */
  lemma TiesSwap<T>(a: T, b: T, t: seq<T>, y: T, cmp: (T, T) -> int)
    requires !Tied(cmp, a, y) || !Tied(cmp, b, y)
    ensures Ties([a] + ([b] + t), y, cmp) == Ties([b] + ([a] + t), y, cmp)
  {
    TiesCons(a, [b] + t, y, cmp);
    TiesCons(b, t, y, cmp);
    TiesCons(b, [a] + t, y, cmp);
    TiesCons(a, t, y, cmp);
  }

  lemma {:induction false} InsertTies<T(!new)>(x: T, s: seq<T>, y: T, cmp: (T, T) -> int)
    requires IsTotalPreorder(cmp)
    ensures Ties(Insert(x, s, cmp), y, cmp) == Ties([x] + s, y, cmp)
    decreases |s|
  {
    if |s| > 0 && cmp(x, s[0]) > 0 {
      var rest := s[1..];
      assert Insert(x, s, cmp) == [s[0]] + Insert(x, rest, cmp);
      InsertTies(x, rest, y, cmp);
      TiesCons(s[0], Insert(x, rest, cmp), y, cmp);
      TiesCons(s[0], [x] + rest, y, cmp);
      assert Ties(Insert(x, s, cmp), y, cmp) == Ties([s[0]] + ([x] + rest), y, cmp);
      NotBothTied(x, s[0], y, cmp);
      TiesSwap(s[0], x, rest, y, cmp);
      assert [s[0]] + rest == s;
    }
  }

  /** Elements that compare equal keep their original relative order (stability). */
  lemma {:induction false} SortStable<T(!new)>(s: seq<T>, cmp: (T, T) -> int)
    requires IsTotalPreorder(cmp)
    ensures forall y :: Ties(Sort(s, cmp), y, cmp) == Ties(s, y, cmp)
    decreases |s|
  {
    if |s| > 0 {
      SortStable(s[1..], cmp);
      forall y
        ensures Ties(Sort(s, cmp), y, cmp) == Ties(s, y, cmp)
      {
        InsertTies(s[0], Sort(s[1..], cmp), y, cmp);
        TiesCons(s[0], Sort(s[1..], cmp), y, cmp);
        TiesCons(s[0], s[1..], y, cmp);
        assert s == [s[0]] + s[1..];
      }
    }
  }
}

=== FILE: strings.dfy ===
/** The string primitives the application uses: `split`, `toLowerCase`,
    `includes`, `trim` and decimal digits. Strings are sequences of characters. */
module Strings {

  // ---------------------------------------------------------------- split

  /** `s.split(sep)` for a one-character separator. */
  function Split(s: string, sep: char): (pieces: seq<string>)
    ensures |pieces| == Occurrences(s, sep) + 1
    ensures forall i :: 0 <= i < |pieces| ==> sep !in pieces[i]
  {
    SplitFrom(s, sep, "")
  }

  /** Splits `s`, where `acc` is the text of the current piece read so far. */
  function SplitFrom(s: string, sep: char, acc: string): (pieces: seq<string>)
    requires sep !in acc
    ensures |pieces| == Occurrences(s, sep) + 1
    ensures forall i :: 0 <= i < |pieces| ==> sep !in pieces[i]
    decreases |s|
  {
    if |s| == 0 then [acc]
    else if s[0] == sep then [acc] + SplitFrom(s[1..], sep, "")
    else SplitFrom(s[1..], sep, acc + [s[0]])
  }

  /** Number of occurrences of `c` in `s`. */
  function Occurrences(s: string, c: char): nat
  {
    if |s| == 0 then 0 else (if s[0] == c then 1 else 0) + Occurrences(s[1..], c)
  }

  /** `pieces.join(sep)`, the inverse of `Split`. */
  function Join(pieces: seq<string>, sep: char): string
  {
    if |pieces| == 0 then ""
    else if |pieces| == 1 then pieces[0]
    else pieces[0] + [sep] + Join(pieces[1..], sep)
  }

  lemma {:induction false} SplitFromJoin(s: string, sep: char, acc: string)
    requires sep !in acc
    ensures Join(SplitFrom(s, sep, acc), sep) == acc + s
    decreases |s|
  {
    if |s| == 0 {
    } else if s[0] == sep {
      var rest := SplitFrom(s[1..], sep, "");
      SplitFromJoin(s[1..], sep, "");
      assert SplitFrom(s, sep, acc) == [acc] + rest;
      assert ([acc] + rest)[1..] == rest;
      assert s == [sep] + s[1..];
    } else {
      SplitFromJoin(s[1..], sep, acc + [s[0]]);
      assert acc + [s[0]] + s[1..] == acc + s by {
        assert s == [s[0]] + s[1..];
      }
    }
  }

  /** Joining the pieces of a split with the same separator gives back the string. */
  lemma SplitThenJoin(s: string, sep: char)
    ensures Join(Split(s, sep), sep) == s
  {
    SplitFromJoin(s, sep, "");
  }

  /** Reading `p` (free of separators) onto `acc` extends the current piece by `p`. */
  lemma {:induction false} SplitFromPiece(p: string, rest: string, sep: char, acc: string)
    requires sep !in acc && sep !in p
    ensures SplitFrom(p + rest, sep, acc) == SplitFrom(rest, sep, acc + p)
    decreases |p|
  {
    if |p| > 0 {
      assert (p + rest)[0] == p[0];
      assert (p + rest)[1..] == p[1..] + rest;
      SplitFromPiece(p[1..], rest, sep, acc + [p[0]]);
      assert acc + [p[0]] + p[1..] == acc + p by {
        assert p == [p[0]] + p[1..];
      }
    } else {
      assert p + rest == rest;
      assert acc + p == acc;
    }
  }

  /** Splitting the join of separator-free pieces gives back the pieces. */
  lemma {:induction false} JoinThenSplit(pieces: seq<string>, sep: char)
    requires |pieces| >= 1
    requires forall i :: 0 <= i < |pieces| ==> sep !in pieces[i]
    ensures Split(Join(pieces, sep), sep) == pieces
    decreases |pieces|
  {
    if |pieces| == 1 {
      SplitFromPiece(pieces[0], "", sep, "");
      assert pieces[0] + "" == pieces[0];
      assert "" + pieces[0] == pieces[0];
    } else {
      var tail := Join(pieces[1..], sep);
      JoinThenSplit(pieces[1..], sep);
      calc {
        Split(Join(pieces, sep), sep);
        { assert Join(pieces, sep) == pieces[0] + ([sep] + tail); }
        SplitFrom(pieces[0] + ([sep] + tail), sep, "");
        { SplitFromPiece(pieces[0], [sep] + tail, sep, ""); }
        SplitFrom([sep] + tail, sep, "" + pieces[0]);
        { assert ([sep] + tail)[1..] == tail; assert "" + pieces[0] == pieces[0]; }
        [pieces[0]] + SplitFrom(tail, sep, "");
        [pieces[0]] + pieces[1..];
        pieces;
      }
    }
  }

  // ---------------------------------------------------------- lower case

  /** `toLowerCase` on one character, restricted to the ASCII letters. */
  function LowerChar(c: char): char
  {
    if 'A' <= c <= 'Z' then (c as int + 32) as char else c
  }

  /** `s.toLowerCase()`, restricted to the ASCII letters. */
  function Lower(s: string): (r: string)
    ensures |r| == |s|
    ensures forall i :: 0 <= i < |s| ==> r[i] == LowerChar(s[i])
  {
    seq(|s|, i requires 0 <= i < |s| => LowerChar(s[i]))
  }

  // ------------------------------------------------------------- includes

  /** `hay.includes(needle)`: `needle` occurs as a contiguous block of `hay`. */
  function Includes(hay: string, needle: string): (r: bool)
    ensures r <==> exists i :: 0 <= i <= |hay| && needle <= hay[i..]
    decreases |hay|
  {
    if needle <= hay then
      assert needle <= hay[0..];
      true
    else if |hay| == 0 then false
    else
      var r := Includes(hay[1..], needle);
      if r then
        var j :| 0 <= j <= |hay[1..]| && needle <= hay[1..][j..];
        assert hay[1..][j..] == hay[j + 1..];
        true
      else
        assert forall i :: 1 <= i <= |hay| ==> hay[i..] == hay[1..][i - 1..];
        false
  }

  // ----------------------------------------------------------------- trim

  /** The characters `String.prototype.trim` removes: ECMAScript WhiteSpace
      and LineTerminator code points. */
  predicate IsSpace(c: char)
  {
    c == '\t' || c == '\n' || c == '\U{B}' || c == '\U{C}' || c == '\r' || c == ' '
    || c == '\U{A0}' || c == '\U{1680}' || ('\U{2000}' <= c <= '\U{200A}')
    || c == '\U{2028}' || c == '\U{2029}' || c == '\U{202F}' || c == '\U{205F}'
    || c == '\U{3000}' || c == '\U{FEFF}'
  }

  /** `s.trim() === ''`. */
  predicate IsBlank(s: string)
  {
    forall i :: 0 <= i < |s| ==> IsSpace(s[i])
  }

  // --------------------------------------------------------------- digits

  predicate IsDigit(c: char)
  {
    '0' <= c <= '9'
  }

  predicate AllDigits(s: string)
  {
    forall i :: 0 <= i < |s| ==> IsDigit(s[i])
  }

  function DigitChar(d: nat): (c: char)
    requires d < 10
    ensures IsDigit(c)
  {
    ('0' as int + d) as char
  }

  /** `Number(s)` on a string of decimal digits (the empty string reads as 0). */
  function ParseNat(s: string): nat
    requires AllDigits(s)
  {
    if |s| == 0 then 0
    else ParseNat(s[..|s| - 1]) * 10 + (s[|s| - 1] as int - '0' as int)
  }

  /** Decimal text of `n`, left-padded with zeros to at least `width` digits. */
  function Digits(n: nat, width: nat): (s: string)
    ensures |s| >= 1 && |s| >= width
    ensures AllDigits(s)
    decreases n + width
  {
    if n < 10 && width <= 1 then [DigitChar(n)]
    else Digits(n / 10, if width > 0 then width - 1 else 0) + [DigitChar(n % 10)]
  }

  /** Reading back the digits of `n` gives `n`. */
  lemma {:induction false} ParseDigits(n: nat, width: nat)
    ensures ParseNat(Digits(n, width)) == n
    decreases n + width
  {
    var s := Digits(n, width);
    if n < 10 && width <= 1 {
      assert s[..|s| - 1] == [];
    } else {
      var w := if width > 0 then width - 1 else 0;
      ParseDigits(n / 10, w);
      assert s[..|s| - 1] == Digits(n / 10, w);
      assert s[|s| - 1] as int - '0' as int == n % 10;
      assert ParseNat(s) == (n / 10) * 10 + n % 10;
    }
  }
}

=== FILE: totals.dfy ===
/** Lifetime totals: per-country sums of cases and deaths over the whole
    loaded dataset (`totalDict` in `processData`). */
module Totals {
  import opened Records

  /** The two counts a record carries. */
  datatype Metric = Cases | Deaths

  function Count(r: Record, m: Metric): int
  {
    match m
    case Cases => r.cases
    case Deaths => r.deaths
  }

  /** Reference definition: the sum of metric `m` over the records of country `c`. */
  function SumOf(data: seq<Record>, c: string, m: Metric): int
    decreases |data|
  {
    if |data| == 0 then 0
    else (if data[0].country == c then Count(data[0], m) else 0) + SumOf(data[1..], c, m)
  }

  /** The countries that occur in `data`. */
  ghost function CountriesIn(data: seq<Record>): set<string>
  {
    set r | r in data :: r.country
  }

  datatype Total = Total(cases: int, deaths: int)

  type Totals = map<string, Total>

  /** The lifetime total of country `c`, by the reference sums. */
  function TotalOf(data: seq<Record>, c: string): Total
  {
    Total(SumOf(data, c, Cases), SumOf(data, c, Deaths))
  }

  /** Adding one record to the dictionary, as the `forEach` body does. */
  function AddRecord(t: Totals, r: Record): Totals
  {
    if r.country in t then
      t[r.country := Total(t[r.country].cases + r.cases, t[r.country].deaths + r.deaths)]
    else
      t[r.country := Total(r.cases, r.deaths)]
  }

  lemma {:induction false} SumOfSnoc(data: seq<Record>, r: Record, c: string, m: Metric)
    ensures SumOf(data + [r], c, m) == SumOf(data, c, m) + (if r.country == c then Count(r, m) else 0)
    decreases |data|
  {
    if |data| == 0 {
      assert [r][1..] == [];
    } else {
      assert (data + [r])[1..] == data[1..] + [r];
      SumOfSnoc(data[1..], r, c, m);
    }
  }

  /** A country that does not occur contributes nothing. */
  lemma {:induction false} SumOfAbsent(data: seq<Record>, c: string, m: Metric)
    requires c !in CountriesIn(data)
    ensures SumOf(data, c, m) == 0
    decreases |data|
  {
    if |data| > 0 {
      assert data[0] in data;
      assert CountriesIn(data[1..]) <= CountriesIn(data) by {
        forall x | x in CountriesIn(data[1..]) ensures x in CountriesIn(data) {
          var r :| r in data[1..] && r.country == x;
          assert r in data;
        }
      }
      SumOfAbsent(data[1..], c, m);
    }
  }

  /** Adding a record to the totals of a prefix gives the totals of the longer prefix. */
  lemma AddRecordExtends(init: seq<Record>, r: Record, t0: Totals)
    requires t0.Keys == CountriesIn(init)
    requires forall c :: c in t0 ==> t0[c] == TotalOf(init, c)
    ensures AddRecord(t0, r).Keys == CountriesIn(init + [r])
    ensures forall c :: c in AddRecord(t0, r) ==> AddRecord(t0, r)[c] == TotalOf(init + [r], c)
  {
    var data := init + [r];
    assert CountriesIn(data) == CountriesIn(init) + {r.country} by {
      assert r in data;
      forall x | x in CountriesIn(data) ensures x in CountriesIn(init) + {r.country} {
        var q :| q in data && q.country == x;
        assert q in init || q == r;
      }
    }
    forall c | c in AddRecord(t0, r)
      ensures AddRecord(t0, r)[c] == TotalOf(data, c)
    {
      SumOfSnoc(init, r, c, Cases);
      SumOfSnoc(init, r, c, Deaths);
      if c == r.country && c !in t0 {
        SumOfAbsent(init, c, Cases);
        SumOfAbsent(init, c, Deaths);
      }
    }
  }

  /** The dictionary built over the whole dataset, record by record in order:
      one entry per country that occurs, holding that country's sums. */
  function LifetimeTotals(data: seq<Record>): (t: Totals)
    ensures t.Keys == CountriesIn(data)
    ensures forall c :: c in t ==> t[c] == TotalOf(data, c)
    decreases |data|
  {
    if |data| == 0 then map[]
    else
      var init := data[..|data| - 1];
      var r := data[|data| - 1];
      var t0 := LifetimeTotals(init);
      assert data == init + [r];
      AddRecordExtends(init, r, t0);
      AddRecord(t0, r)
  }
}

=== FILE: view.dfy ===
/** The table view: the sort-key/direction toggle, the row comparator, the
    sort itself and the 20-row pages. */
module View {
  import opened Wrappers
  import opened Seqs
  import opened Sorting
  import opened Aggregation

  /** The five sortable columns of the table header. */
  datatype SortKey = Country | Cases | Deaths | CasesPer1000 | DeathsPer1000

  datatype Direction = Asc | Desc

  /** `sortBy` and `sortOrder`. */
  datatype SortState = SortState(key: SortKey, dir: Direction)

  /** The table starts sorted by country, ascending. */
  const InitialSort := SortState(Country, Asc)

  // ----------------------------------------------------------- the toggle

  /** `handleSortChange`: clicking the active column while ascending turns it
      descending; any other click sorts the clicked column ascending. */
  function ToggleSort(s: SortState, key: SortKey): (s': SortState)
    ensures s'.key == key
    ensures s'.dir == Desc <==> s.key == key && s.dir == Asc
  {
    SortState(key, if s.key == key && s.dir == Asc then Desc else Asc)
  }

  /** The arrow a column header shows: the sort direction on the active
      column, ascending on the others. */
  function HeaderDirection(s: SortState, key: SortKey): Direction
  {
    if s.key == key then s.dir else Asc
  }

  /** Clicking a column leaves every other column's arrow ascending; clicking
      the same column repeatedly, starting from another, sorts it ascending,
      then descending, then ascending again. */
  lemma ToggleSequence(s: SortState, key: SortKey, other: SortKey)
    requires s.key != key
    ensures other != key ==> HeaderDirection(ToggleSort(s, key), other) == Asc
    ensures ToggleSort(s, key) == SortState(key, Asc)
    ensures ToggleSort(ToggleSort(s, key), key) == SortState(key, Desc)
    ensures ToggleSort(ToggleSort(ToggleSort(s, key), key), key) == SortState(key, Asc)
  {
  }

  /** Two clicks on the same column restore the state exactly when that
      column was already the active one. */
  lemma ToggleTwice(s: SortState, key: SortKey)
    ensures ToggleSort(ToggleSort(s, key), key) == s <==> s.key == key
  {
  }

  // ------------------------------------------------------ the comparator

  /** A sortable cell value: the country name or one of the numbers. */
  datatype Value = Num(n: real) | Text(s: string)

  /** JavaScript's `<` on strings: lexicographic by character. */
  predicate StrLess(a: string, b: string)
    decreases |a|
  {
    |b| > 0 && (|a| == 0 || a[0] < b[0] || (a[0] == b[0] && StrLess(a[1..], b[1..])))
  }

  lemma {:induction false} StrLessIrreflexive(a: string)
    ensures !StrLess(a, a)
    decreases |a|
  {
    if |a| > 0 {
      StrLessIrreflexive(a[1..]);
    }
  }

  lemma {:induction false} StrLessTotal(a: string, b: string)
    ensures a == b || StrLess(a, b) || StrLess(b, a)
    decreases |a|
  {
    if |a| > 0 && |b| > 0 && a[0] == b[0] {
      StrLessTotal(a[1..], b[1..]);
      if a[1..] == b[1..] {
        assert a == [a[0]] + a[1..] && b == [b[0]] + b[1..];
      }
    }
  }

  lemma {:induction false} StrLessAsymmetric(a: string, b: string)
    ensures !(StrLess(a, b) && StrLess(b, a))
    decreases |a|
  {
    if |a| > 0 && |b| > 0 && a[0] == b[0] {
      StrLessAsymmetric(a[1..], b[1..]);
    }
  }

  lemma {:induction false} StrLessTransitive(a: string, b: string, c: string)
    requires StrLess(a, b) && StrLess(b, c)
    ensures StrLess(a, c)
    decreases |a|
  {
    if |a| > 0 && a[0] == b[0] && b[0] == c[0] {
      StrLessTransitive(a[1..], b[1..], c[1..]);
    }
  }

  /** `aValue < bValue`. Values of different kinds are never less than one
      another (a number against a non-numeric string compares as NaN). */
  predicate Less(a: Value, b: Value)
  {
    match (a, b)
    case (Num(x), Num(y)) => x < y
    case (Text(x), Text(y)) => StrLess(x, y)
    case _ => false
  }

  /** The comparator passed to `sort`: a missing value on either side ties;
      otherwise the smaller value goes first ascending and last descending. */
  function Compare(a: Option<Value>, b: Option<Value>, dir: Direction): (r: int)
    ensures a.None? || b.None? ==> r == 0
    ensures r == -1 || r == 0 || r == 1
    ensures a.Some? && b.Some? && Less(a.value, b.value) && !Less(b.value, a.value) ==>
              r == (if dir == Asc then -1 else 1)
    ensures a.Some? && b.Some? && Less(b.value, a.value) && !Less(a.value, b.value) ==>
              r == (if dir == Asc then 1 else -1)
    ensures a.Some? && b.Some? && !Less(a.value, b.value) && !Less(b.value, a.value) ==> r == 0
  {
    if a.None? || b.None? then 0
    else if Less(a.value, b.value) then (if dir == Asc then -1 else 1)
    else if Less(b.value, a.value) then (if dir == Asc then 1 else -1)
    else 0
  }

  /** `a[sortBy]` for each sortable column. */
  function KeyOf(row: Row, key: SortKey): (v: Value)
    ensures v.Text? <==> key == Country
    ensures key == Country ==> v.s == row.country
    ensures key == Cases ==> v.n == row.cases as real
    ensures key == Deaths ==> v.n == row.deaths as real
    ensures key == CasesPer1000 ==> v.n == row.casesPer1000
    ensures key == DeathsPer1000 ==> v.n == row.deathsPer1000
  {
    match key
    case Country => Text(row.country)
    case Cases => Num(row.cases as real)
    case Deaths => Num(row.deaths as real)
    case CasesPer1000 => Num(row.casesPer1000)
    case DeathsPer1000 => Num(row.deathsPer1000)
  }

  /** The comparator over aggregated rows for the chosen column and direction. */
  function CompareRows(s: SortState): (Row, Row) -> int
  {
    (x: Row, y: Row) => Compare(Some(KeyOf(x, s.key)), Some(KeyOf(y, s.key)), s.dir)
  }

  /** Flipping the direction negates every comparison. */
  lemma CompareDirections(a: Option<Value>, b: Option<Value>)
    ensures Compare(a, b, Desc) == -Compare(a, b, Asc)
  {
  }

  /** Within one column, values are strictly totally ordered by `Less`. */
  lemma KeyOrder(x: Row, y: Row, z: Row, key: SortKey)
    ensures !Less(KeyOf(x, key), KeyOf(x, key))
    ensures KeyOf(x, key) == KeyOf(y, key) || Less(KeyOf(x, key), KeyOf(y, key)) || Less(KeyOf(y, key), KeyOf(x, key))
    ensures !(Less(KeyOf(x, key), KeyOf(y, key)) && Less(KeyOf(y, key), KeyOf(x, key)))
    ensures Less(KeyOf(x, key), KeyOf(y, key)) && Less(KeyOf(y, key), KeyOf(z, key)) ==> Less(KeyOf(x, key), KeyOf(z, key))
  {
    if key == Country {
      StrLessIrreflexive(x.country);
      StrLessTotal(x.country, y.country);
      StrLessAsymmetric(x.country, y.country);
      if StrLess(x.country, y.country) && StrLess(y.country, z.country) {
        StrLessTransitive(x.country, y.country, z.country);
      }
    }
  }

  /** What the comparator says about two rows: ascending, `a` may precede `b`
      unless `b`'s value is smaller; descending, unless it is larger. */
  lemma CompareRowsAt(s: SortState, a: Row, b: Row)
    ensures CompareRows(s)(a, b) <= 0
        <==> if s.dir == Asc then !Less(KeyOf(b, s.key), KeyOf(a, s.key))
             else !Less(KeyOf(a, s.key), KeyOf(b, s.key))
  {
    assert CompareRows(s)(a, b) == Compare(Some(KeyOf(a, s.key)), Some(KeyOf(b, s.key)), s.dir);
    KeyOrder(a, b, b, s.key);
  }

  /** The row comparator meets the contract of `sort` for every column and
      direction. */
  lemma CompareRowsIsTotalPreorder(s: SortState)
    ensures IsTotalPreorder(CompareRows(s))
  {
    var cmp := CompareRows(s);
    forall a, b ensures cmp(a, b) <= 0 || cmp(b, a) <= 0 {
      CompareRowsAt(s, a, b);
      CompareRowsAt(s, b, a);
      KeyOrder(a, b, b, s.key);
    }
    forall a, b, c | cmp(a, b) <= 0 && cmp(b, c) <= 0 ensures cmp(a, c) <= 0 {
      CompareRowsAt(s, a, b);
      CompareRowsAt(s, b, c);
      CompareRowsAt(s, a, c);
      KeyOrder(a, b, c, s.key);
      KeyOrder(c, a, b, s.key);
      KeyOrder(b, c, a, s.key);
      KeyOrder(c, b, a, s.key);
      KeyOrder(a, c, b, s.key);
      KeyOrder(b, a, c, s.key);
    }
  }

  /** `sortedFilteredData`: the rows sorted by the chosen column and direction. */
  function SortRows(rows: seq<Row>, s: SortState): (out: seq<Row>)
    ensures |out| == |rows|
    ensures multiset(out) == multiset(rows)
  {
    Sort(rows, CompareRows(s))
  }

  /** The sorted rows are a permutation of the rows, in order of the chosen
      column and direction, with rows of equal value kept in their original
      relative order. */
  lemma SortRowsCorrect(rows: seq<Row>, s: SortState)
    ensures multiset(SortRows(rows, s)) == multiset(rows)
    ensures Sorted(SortRows(rows, s), CompareRows(s))
    ensures forall y :: Ties(SortRows(rows, s), y, CompareRows(s)) == Ties(rows, y, CompareRows(s))
  {
    CompareRowsIsTotalPreorder(s);
    SortSorted(rows, CompareRows(s));
    SortStable(rows, CompareRows(s));
  }

  /** In ascending order by cases, fewer cases come first; descending, more. */
  lemma SortedByCases(rows: seq<Row>, dir: Direction, i: nat, j: nat)
    requires i < j < |rows|
    ensures var out := SortRows(rows, SortState(Cases, dir));
      if dir == Asc then out[i].cases <= out[j].cases else out[i].cases >= out[j].cases
  {
    SortRowsCorrect(rows, SortState(Cases, dir));
    var out := SortRows(rows, SortState(Cases, dir));
    assert CompareRows(SortState(Cases, dir))(out[i], out[j]) <= 0;
    CompareRowsAt(SortState(Cases, dir), out[i], out[j]);
  }

  /** Row `a` may be listed before row `b` under sort state `s`, read off
      the fields directly: the chosen column's field of `a` is not past `b`'s
      in the chosen direction. */
  predicate MayPrecede(a: Row, b: Row, s: SortState)
  {
    match s.key
    case Country => if s.dir == Asc then !StrLess(b.country, a.country) else !StrLess(a.country, b.country)
    case Cases => if s.dir == Asc then a.cases <= b.cases else a.cases >= b.cases
    case Deaths => if s.dir == Asc then a.deaths <= b.deaths else a.deaths >= b.deaths
    case CasesPer1000 =>
      if s.dir == Asc then a.casesPer1000 <= b.casesPer1000 else a.casesPer1000 >= b.casesPer1000
    case DeathsPer1000 =>
      if s.dir == Asc then a.deathsPer1000 <= b.deathsPer1000 else a.deathsPer1000 >= b.deathsPer1000
  }

  /** Whatever the column and direction, an earlier sorted row may precede a
      later one by that column's field. */
  lemma SortedByColumn(rows: seq<Row>, s: SortState, i: nat, j: nat)
    requires i < j < |rows|
    ensures MayPrecede(SortRows(rows, s)[i], SortRows(rows, s)[j], s)
  {
    SortRowsCorrect(rows, s);
    var out := SortRows(rows, s);
    assert CompareRows(s)(out[i], out[j]) <= 0;
    CompareRowsAt(s, out[i], out[j]);
  }

  // ------------------------------------------------------------- paging

  const RowsPerPage: nat := 20

  /** Page numbers start at 1. */
  type PageNumber = p: nat | p >= 1 witness 1

  /** `Math.ceil(n / rowsPerPage)`: the number of pages the pager offers. */
  function PageCount(n: nat): (c: nat)
    ensures c * RowsPerPage >= n
    ensures c == 0 || (c - 1) * RowsPerPage < n
  {
    (n + RowsPerPage - 1) / RowsPerPage
  }

  function Min(a: nat, b: nat): nat { if a <= b then a else b }

  /** `rows.slice((page - 1) * 20, page * 20)`; `slice` clamps both ends to
      the length. Pages are numbered from 1. */
  function Page<T>(rows: seq<T>, page: PageNumber): (p: seq<T>)
    ensures |p| <= RowsPerPage
    ensures (page - 1) * RowsPerPage >= |rows| ==> p == []
    ensures (page - 1) * RowsPerPage < |rows| ==> |p| == Min(RowsPerPage, |rows| - (page - 1) * RowsPerPage)
    ensures forall i :: 0 <= i < |p| ==>
              (page - 1) * RowsPerPage + i < |rows| && p[i] == rows[(page - 1) * RowsPerPage + i]
  {
    var start := Min((page - 1) * RowsPerPage, |rows|);
    var end := Min(page * RowsPerPage, |rows|);
    rows[start..end]
  }

  /** A page past the last one is empty, and every page up to the last holds
      rows; the first page holds the first `min(20, n)` rows. */
  lemma PageBounds<T>(rows: seq<T>, page: PageNumber)
    ensures page > PageCount(|rows|) ==> Page(rows, page) == []
    ensures page <= PageCount(|rows|) ==> |Page(rows, page)| > 0
    ensures page == 1 ==> Page(rows, page) == rows[..Min(RowsPerPage, |rows|)]
  {
  }

  /** Pages 1 to `k`, one after another. */
  function Pages<T>(rows: seq<T>, k: nat): seq<T>
  {
    if k == 0 then [] else Pages(rows, k - 1) + Page(rows, k)
  }

  /** The first `k` pages are the first `min(20 k, n)` rows. */
  lemma {:induction false} PagesPrefix<T>(rows: seq<T>, k: nat)
    ensures Pages(rows, k) == rows[..Min(k * RowsPerPage, |rows|)]
  {
    if k > 0 {
      PagesPrefix(rows, k - 1);
      var a := Min((k - 1) * RowsPerPage, |rows|);
      var b := Min(k * RowsPerPage, |rows|);
      assert rows[..a] + rows[a..b] == rows[..b];
    }
  }

  /** Reading all the pages in order gives back every row exactly once. */
  lemma PagesCoverRows<T>(rows: seq<T>)
    ensures Pages(rows, PageCount(|rows|)) == rows
  {
    PagesPrefix(rows, PageCount(|rows|));
  }
}

=== FILE: wrappers.dfy ===
/** Failure-carrying return types shared by the whole model. */
module Wrappers {

  /** A value that may be missing: JavaScript's `null` / `undefined`. */
  datatype Option<+T> = None | Some(value: T)

  /** The outcome of an operation that can fail with an error message. */
  datatype Result<+T> = Success(value: T) | Failure(error: string)
}
